=== FILE: README.md ===
# LSA Timetable — a Dafny model of its calendar logic and request rules

The LSA Timetable is a small school timetabling web application. It has
teachers, subjects, year groups and weekly schedule entries. Each entry is a
teacher teaching a subject to a year group on a weekday from `"HH:MM"` to
`"HH:MM"`. The model covers three layers of it.

- **The calendar page.** Conversion between `"HH:MM"` and minutes. Each
  teacher's weekly workload and its `"Hh"` / `"Hh Mm"` label. The grid
  geometry: block offsets and heights, the ten hourly row labels from 07:30
  to 16:30, the two lunch bands, and the one-hour slot a click on a row
  proposes. The Monday–Friday week of a date and the ±7-day navigation. The
  sidebar's teacher filter and checkbox toggle. The split of the shown entries
  into the five day columns.
- **The API route handlers.** Each is a pure decision function from the
  caller's session, the request body and the store to a status and the new
  store. The handlers are the schedule, subject, teacher and year-group
  create/list routes, registration, and the profile update.
- **The profile form.** Its two pre-request checks, the body it sends, and
  the reset after a success.

Modules follow the program's structure:

| file | module | models |
|---|---|---|
| `js.dfy` | `Js` | the JavaScript value semantics the code relies on: truthiness, `%`, `toString`, `padStart`, `parseInt` |
| `types.dfy` | `Types` | the shared record shapes and constants (`src/lib/types.ts`) |
| `clock.dfy` | `Clock` | `timeToMinutes` / `minutesToTime` |
| `layout.dfy` | `Layout` | the grid constants, `getBlockStyle`, `TIME_SLOTS`, the lunch bands, the click prefill |
| `week.dfy` | `Week` | `getWeekDates`, `prevWeek` / `nextWeek` |
| `selection.dfy` | `Selection` | `filteredSchedules`, `toggleTeacher`, the sidebar checkbox, the day columns |
| `workload.dfy` | `Workload` | `calculateTeacherHours` |
| `store.dfy` | `Store` | sessions, request-body fields, the store's tables, status codes |
| `schedules_api.dfy` | `SchedulesApi` | `POST` / `GET /api/schedules` |
| `subjects_api.dfy` | `SubjectsApi` | `POST` / `GET /api/subjects` |
| `teachers_api.dfy` | `TeachersApi` | `POST /api/teachers` |
| `year_groups_api.dfy` | `YearGroupsApi` | `POST /api/year-groups` |
| `register_api.dfy` | `RegisterApi` | `POST /api/register` |
| `profile_api.dfy` | `ProfileApi` | `PUT /api/profile` |
| `profile_form.dfy` | `ProfileForm` | the profile page's `handleSubmit` |

Modelling choices:

- Dates are whole day numbers, with day 0 = 1 January 1970, a Thursday.
  `Week.Weekday` is `getDay()`. Adding to a day number stands for
  `setDate(getDate() + n)`.
- Pixel values are reals. With `HOUR_HEIGHT` 60, one pixel is one minute.
- JavaScript's `Math.floor(x / 60)` is Dafny's `/` by a positive divisor.
  JavaScript's `%` is modelled by `Js.Rem`, which takes the sign of the
  dividend.
- A body field is `Option<string>` when the handler only tests its
  truthiness. `undefined`, `null` and `""` are then all falsy.
- `Store.Field` is used where the code tells `undefined` from `null`:
  - `dayOfWeek === undefined` in the schedules route;
  - the store skipping an `undefined` `name` in the profile route.
- The store assigns new identifiers; they are the `newId` parameter.
- Each table is a sequence in insertion order. Users form a map keyed by
  e-mail.
- `bcrypt.hash` and `bcrypt.compare` are the function parameters `hash` and
  `compare`. next-auth's session is the `session` parameter.
- When the store refuses a write or a query, the handler's `catch` answers
  500. Four such refusals are modelled:
  - `null` for the required integer `dayOfWeek` when creating a schedule;
  - a `dayOfWeek` list filter that `parseInt` reads as `NaN`;
  - a subject `type` outside the enum;
  - a teacher e-mail that already exists, since the column is unique.

Behaviour of the code worth knowing:

- `dayOfWeek` is stored as given. Nothing checks that it lies in 0..4 (`SchedulesApi.NoRangeChecks` accepts 7).
- The profile route writes `{ name }`, so a body without `name` leaves the stored name alone (`ProfileApi.NameAfter`). The profile form always sends a name.
- A `dayOfWeek` query parameter is read with `parseInt` and no radix. A `0x`/`0X` prefix switches it to base 16, so `0x1` selects day 1 (`SchedulesApi.HexDayParamSelectsDay`). A text `parseInt` reads as `NaN`, such as `0x` or `abc`, is an invalid integer filter, answered 500 (`SchedulesApi.HexPrefixAloneRefused`).

## Model

| member | source | states |
|---|---|---|
| Clock.TimeToMinutes | src/app/page.tsx:12-15 | for `"HH:MM"` the minutes are 60·HH+MM; with MM below 60, division by 60 gives back HH and the remainder MM |
| Clock.MinutesToTime | src/app/page.tsx:17-21 | for 0 ≤ m < 6000 the text is two digits, a colon and two digits, fields m÷60 and m mod 60, denoting m again; below 1440 it is a valid time of day |
| Clock.TimeRoundTrip | src/app/page.tsx:12-21 | `minutesToTime(timeToMinutes(t)) == t` for every well-formed `t` whose minute field is below 60, because both fields are zero-padded |
| Clock.MinutesRoundTrip | src/app/page.tsx:12-21 | every minute count of a day (0..1439) gives a valid time that reads back as that count |
| Clock.TimeInjective | src/app/page.tsx:12-15 | two valid times with the same minute count are the same string |
| Workload.SumOfTeacherEntries | src/app/page.tsx:23-28 | summing end−start over `schedules.filter(s => s.teacherId === id)` equals the teacher's total, where each of the teacher's entries is counted once and no other entry counts |
| Workload.TeacherMinutesAppend | src/app/page.tsx:23-28 | a teacher's total over two lists joined is the sum of the two totals |
| Workload.OtherTeachersIgnored | src/app/page.tsx:24-28 | two lists with the same entries of a teacher, in order, give that teacher the same total, whatever other teachers' entries they hold |
| Workload.NoEntriesNoMinutes | src/app/page.tsx:23-28 | a teacher without entries totals 0 minutes |
| Workload.FormatDuration | src/app/page.tsx:29-32 | the label ends in `h` exactly when the JavaScript remainder of the total by 60 is 0, and in `m` otherwise |
| Workload.DurationRoundTrip | src/app/page.tsx:29-32 | for a total of 0 or more the label reads back as `Math.floor(total / 60)` hours and `total % 60` minutes |
| Workload.ReadDurationOnlyLabels | src/app/page.tsx:29-32 | the reader accepts nothing but labels: a text that reads as hours h and minutes m is exactly the label of 60·h+m, so with `DurationRoundTrip` the label of a total is the one text that reads as its hours and remainder |
| Workload.FormatDurationInjective | src/app/page.tsx:29-32 | distinct totals of 0 or more get distinct labels |
| Workload.ReaderRejectsPaddedHours | src/app/page.tsx:29-32 | an hour count with a leading zero, such as `"02h"`, is not a label |
| Workload.ReaderRejectsLongMinutes | src/app/page.tsx:29-32 | a minutes field of 60 or more, such as `"0h 170m"`, is not a label |
| Workload.CalculateTeacherHours | src/app/page.tsx:23-33 | the loop over the filtered entries returns the label of the teacher's total |
| Workload.FormatExamples | src/app/page.tsx:29-32 | 0 minutes give `"0h"`, 170 give `"2h 50m"`, 410 give `"6h 50m"` |
| Workload.FormatNegativeExample | src/app/page.tsx:29-32 | a total of −30 minutes, with JavaScript's floor and remainder, gives `"-1h -30m"` |
| Layout.GridBounds | src/app/page.tsx:35-36 | `GRID_START` is 450 (07:30) and `GRID_END` 990 (16:30); the school-day and lunch constants denote 855, 680, 735, 735 and 795 minutes, and `SCHOOL_END` lies before the grid end |
| Layout.BlockStyle | src/app/page.tsx:43-49 | a block's top is its start minus 450 and its height its end minus its start, in pixels, unclipped |
| Layout.BlockPlacement | src/app/page.tsx:43-49 | the grid is 540 px tall; a block inside 07:30–16:30 lies inside it; the top is negative exactly for a start before 07:30; the bottom passes the grid exactly for an end after 16:30; the height is negative exactly when the end precedes the start |
| Layout.BuildTimeSlots | src/app/page.tsx:38-41 | the loop yields ten labels, the `i`-th a valid time exactly `i` hours after 07:30 |
| Layout.TimeColumnLabels | src/app/page.tsx:38-41 | the ten labels run from `"07:30"` to `"16:30"` and strictly increase |
| Layout.TimeColumnUnique | src/app/page.tsx:38-41 | only one list of labels has that shape, so `TIME_SLOTS` is fixed by it |
| Layout.LunchZonesContiguous | src/app/page.tsx:410-413 | the lunch bands sit at 230 px (55 px high) and at 285 px (60 px high); the first ends where the second starts, and both lie inside the grid |
| Layout.PrefillFor | src/app/page.tsx:422-431 | clicking row `i` of a day column proposes that day and year group, a start of 450+60·i minutes and an end 60 minutes later, both valid times |
| Layout.PrefillMatchesRowLabel | src/app/page.tsx:418-431 | the proposed start is exactly the label shown on the clicked row |
| Week.WeekDates | src/app/page.tsx:51-61 | five consecutive days with weekdays Monday to Friday; the first lies within the six days up to the date |
| Week.WeekStartIsLatestMonday | src/app/page.tsx:51-61 | the first day is the latest Monday on or before the date; a Sunday steps back six days and a Saturday five |
| Week.PrevWeek | src/app/page.tsx:276-282 | the reference date moves back, to the same weekday |
| Week.NextWeek | src/app/page.tsx:283-289 | the reference date moves on, to the same weekday |
| Week.NavigationShiftsWeek | src/app/page.tsx:276-289 | next moves the date exactly seven days on and previous exactly seven back; the two undo each other, and each shifts every shown day by exactly seven |
| Js.NatToDecimalOfCanonical | src/app/page.tsx:31 | `toString` writes back every numeral without a leading zero: it is the only such numeral for its value |
| Js.ParseInt | src/app/api/schedules/route.ts:19 | `parseInt` with no radix: `NaN` (`None`) exactly when no digit follows the white space, the sign and any `0x` prefix; otherwise the sign applied to the digits read, in base 16 after `0x`/`0X`, else in base 10 |
| Js.ParseIntOfIntToString | src/app/api/schedules/route.ts:19 | `parseInt` reads back every integer `String(d)` writes |
| Js.ParseIntOfHex | src/app/api/schedules/route.ts:19 | an optional minus sign, `0x` or `0X`, then hexadecimal digits: the base-16 value, negated after the sign; the prefix with no digit after it is `NaN` |
| Js.ParseIntOfDigits | src/app/api/schedules/route.ts:19 | a non-empty run of decimal digits parses to the number it denotes |
| Js.ParseIntHexExamples | src/app/api/schedules/route.ts:19 | `"0x1"` is 1, not the 0 a decimal reading would stop at |
| Js.ParseIntBareHexPrefix | src/app/api/schedules/route.ts:19 | `"0x"` alone is `NaN` |
| Js.ParseIntNegativeHex | src/app/api/schedules/route.ts:19 | the sign comes before the prefix: `"-0x10"` is −16 |
| Js.ParseIntLeadingZero | src/app/api/schedules/route.ts:19 | without the prefix a leading zero is a decimal digit: `"012"` is 12 |
| Selection.Filter | src/app/page.tsx:167 | `filter` keeps exactly the elements that pass, never more than it was given |
| Selection.FilterAppend | src/app/page.tsx:167 | filtering keeps the order: it distributes over concatenation |
| Selection.FilterCount | src/app/page.tsx:167 | the filter keeps exactly as many elements as pass |
| Selection.FilteredSchedules | src/app/page.tsx:165-168 | with nobody selected every entry is shown as it is; otherwise exactly the entries of the selected teachers |
| Selection.FilterMonotone | src/app/page.tsx:165-168 | selecting more teachers never hides an entry, while one was selected |
| Selection.SelectAllShowsAll | src/app/page.tsx:165-168 | selecting every teacher that appears shows the same list as selecting none |
| Selection.Toggle | src/app/page.tsx:267-273 | the toggled teacher's membership flips and every other teacher's stays |
| Selection.ToggleTwice | src/app/page.tsx:267-273 | toggling the same teacher twice restores the selection |
| Selection.CheckedMatchesShown | src/app/page.tsx:335 | a teacher's box is ticked exactly when their entries are shown; toggling from an empty selection selects only that teacher |
| Selection.DayColumn | src/app/page.tsx:409 | a day column holds exactly the shown entries of that day |
| Selection.WeekColumns | src/app/page.tsx:408-409 | there are five columns, the `i`-th that of `dayOfWeek` `i` |
| Selection.ColumnsPartition | src/app/page.tsx:408-409 | a shown entry sits in the column of its day and in no other; an entry whose day is outside 0..4 sits in none |
| Selection.ColumnsCoverCalendar | src/app/page.tsx:408-409 | the five columns together hold as many entries as are shown with a day in 0..4, so nothing is drawn twice |
| Types.ParseSubjectType | src/lib/types.ts:14 | a spelling names a kind only if it is that kind's spelling |
| Types.SubjectTypeSpellings | src/lib/types.ts:14 | exactly `MAIN`, `INTERVENTION` and `BOOSTER` name a subject kind, and each names its own |
| Types.FormDataIsScheduleMinusIdentity | src/lib/types.ts:35-56 | the form payload is a schedule without `id` and `createdAt`: dropping and re-adding them is lossless both ways |
| Types.DayLabels | src/lib/types.ts:58-59 | both day-label lists have five entries for `dayOfWeek` 0..4, each short name the first three letters of the full one |
| Types.PaletteColors | src/lib/types.ts:68-77 | 14 subject colours and 10 teacher colours, each a `#rrggbb` hex colour |
| Types.PalettesDistinct | src/lib/types.ts:68-77 | no colour repeats within a palette |
| Types.DefaultColorsAndPalettes | src/app/api/teachers/route.ts:34 | the teacher default `#6366f1` is a palette colour; the subject default `#60a5fa` is a hex colour that is not in the subject palette |
| SchedulesApi.CreateSchedule | src/app/api/schedules/route.ts:41-76 | a non-admin gets 401, an incomplete body 400, a `null` day 500, each with the store unchanged; otherwise 201, with one row appended holding the body's fields, a falsy year group stored as null, and one enrolment per listed student |
| SchedulesApi.RejectedCreateChangesNothing | src/app/api/schedules/route.ts:43-53 | any answer other than 201 leaves the store as it was |
| SchedulesApi.GuardBeforeValidation | src/app/api/schedules/route.ts:43-52 | for a non-admin the answer is 401 whatever the body, so a missing field never earns a 400 |
| SchedulesApi.NoRangeChecks | src/app/api/schedules/route.ts:51-53 | day 0, day 7 and an end before the start all pass validation |
| SchedulesApi.LinksEnrolStudents | src/app/api/schedules/route.ts:63-65 | the enrolments created name exactly the listed students, in order; an absent or empty list enrols none |
| SchedulesApi.WhereOf | src/app/api/schedules/route.ts:15-20 | the query holds a condition for a parameter exactly when that parameter is truthy |
| SchedulesApi.ListSchedules | src/app/api/schedules/route.ts:8-34 | 500 exactly when a non-empty `dayOfWeek` does not parse; otherwise 200 listing exactly the rows that meet every supplied condition |
| SchedulesApi.NoParamsListsAll | src/app/api/schedules/route.ts:15-22 | absent or empty parameters list every row |
| SchedulesApi.DayParamSelectsDay | src/app/api/schedules/route.ts:18-20 | a `dayOfWeek` written as `String(d)` lists exactly the rows of day `d` |
| SchedulesApi.DayParamParsedAs | src/app/api/schedules/route.ts:18-20 | any non-empty `dayOfWeek` text that `parseInt` reads as `d` lists exactly the rows of day `d` |
| SchedulesApi.HexDayParamSelectsDay | src/app/api/schedules/route.ts:18-20 | `?dayOfWeek=0x1` is read in base 16 and lists exactly the rows of day 1 |
| SchedulesApi.HexPrefixAloneRefused | src/app/api/schedules/route.ts:18-20 | `?dayOfWeek=0x` is `NaN` to `parseInt`, and the query is refused with 500 and no rows |
| SchedulesApi.CreatedIsListed | src/app/api/schedules/route.ts:55-62 | an entry just created is listed when its teacher's entries are asked for |
| SubjectsApi.KindOf | src/app/api/subjects/route.ts:46 | a falsy type becomes `MAIN`; a given type is kept when it is one of the three spellings and refused otherwise |
| SubjectsApi.ColorOf | src/app/api/subjects/route.ts:45 | a truthy colour is kept; otherwise `#60a5fa` |
| SubjectsApi.YearLinksNameYearGroups | src/app/api/subjects/route.ts:47-49 | the links created name exactly the listed year groups, in order; none for an absent or empty list |
| SubjectsApi.CreateSubject | src/app/api/subjects/route.ts:29-53 | 401 for a non-admin, 400 without a name, 500 for an unknown type, each with the store unchanged; otherwise 201, one subject row with defaults applied and its year-group links appended, nothing else changed |
| SubjectsApi.DefaultsApplied | src/app/api/subjects/route.ts:42-50 | a subject sent with only a name is a `#60a5fa` `MAIN` subject, and an empty id list adds no link |
| SubjectsApi.ListSubjects | src/app/api/subjects/route.ts:6-22 | 500 exactly for a type that names no kind; otherwise 200 listing exactly the subjects of the given kind with at least one link to the given year group |
| SubjectsApi.CreatedListedUnderYearGroup | src/app/api/subjects/route.ts:14-16 | a subject created for a year group is listed when that year group's subjects are asked for |
| TeachersApi.CreateTeacher | src/app/api/teachers/route.ts:20-36 | 401 for a non-admin, 400 without name or e-mail, 500 for an e-mail already taken, each with the store unchanged; otherwise 201 and one teacher row appended, the colour defaulting to `#6366f1` |
| TeachersApi.OtherFieldsIgnored | src/app/api/teachers/route.ts:27-34 | body keys other than name, e-mail and colour change nothing |
| TeachersApi.DefaultColor | src/app/api/teachers/route.ts:34 | a teacher created without a colour is drawn in `#6366f1` |
| TeachersApi.CreatePreservesUniqueEmails | src/app/api/teachers/route.ts:33-35 | if teacher e-mails are unique before a request, they are unique after it |
| YearGroupsApi.SubjectLinksFor | src/app/api/year-groups/route.ts:31-33 | one link per listed subject, in order, all naming the new year group; none for an absent or empty list |
| YearGroupsApi.CreateYearGroup | src/app/api/year-groups/route.ts:19-37 | 400 without a name and the store unchanged; otherwise 201 with one year group and its links appended, nothing else changed |
| YearGroupsApi.AnyCallerMayCreate | src/app/api/year-groups/route.ts:19-22 | the answer does not depend on the caller; signed-out callers are never refused with 401 |
| YearGroupsApi.LinkedSubjectsAreListed | src/app/api/year-groups/route.ts:31-33 | a subject is linked to the new year group exactly when it was listed |
| RegisterApi.NewUser | src/app/api/register/route.ts:25-33 | the account carries the body's e-mail and name and the hash of the password |
| RegisterApi.Register | src/app/api/register/route.ts:6-35 | 400 with the store unchanged when e-mail or password is missing or the e-mail is taken; otherwise 200 and the account filed under its e-mail |
| RegisterApi.RegisterAddsExactlyOne | src/app/api/register/route.ts:27-33 | a registration adds exactly one key, which was free, and leaves every other account alone |
| RegisterApi.NameNotValidated | src/app/api/register/route.ts:9-13 | the name, or its absence, never changes the answer |
| RegisterApi.RegisterKeepsUsersKeyedByEmail | src/app/api/register/route.ts:15-33 | if every account is filed under its own e-mail before, it is after: e-mails stay unique |
| RegisterApi.SecondRegistrationRefused | src/app/api/register/route.ts:15-23 | registering the same e-mail again is refused with 400 and changes nothing |
| ProfileApi.NameAfter | src/app/api/profile/route.ts:26 | an absent `name` keeps the stored name, `null` clears it, a given name replaces it |
| ProfileApi.UpdateProfile | src/app/api/profile/route.ts:8-46 | 401 without a session e-mail, 404 without the account, 400 for a new password without a matching current one, each with the store unchanged; otherwise 200 with the name updated and the password replaced by the new one's hash only when a new one is given |
| ProfileApi.PasswordChangeNeedsCurrent | src/app/api/profile/route.ts:28-36 | a new password with the current one missing or wrong is refused with 400 and nothing is updated |
| ProfileApi.UpdateKeepsKey | src/app/api/profile/route.ts:41-44 | a successful update keeps the set of accounts and the caller's e-mail, touches no other account, and keeps the hash when no new password is given |
| ProfileApi.UpdateKeepsUsersKeyedByEmail | src/app/api/profile/route.ts:41-44 | if every account is filed under its own e-mail before an update, it is after |
| ProfileForm.PresentIfFilled | src/app/profile/page.tsx:51-52 | an empty password field is sent as an absent key, any other as itself |
| ProfileForm.Submit | src/app/profile/page.tsx:27-53 | a filled new password that differs from its confirmation is rejected; one without the current password is rejected next; otherwise the body is sent, always with the name |
| ProfileForm.PayloadKeepsFields | src/app/profile/page.tsx:49-53 | the body sent carries the form's name and passwords unchanged |
| ProfileForm.MismatchCheckedFirst | src/app/profile/page.tsx:33-43 | with a mismatched confirmation the answer is the mismatch error whatever the current password |
| ProfileForm.AfterResponse | src/app/profile/page.tsx:55-61 | a success clears the three password fields and keeps the name; a failure keeps the form |
| ProfileForm.ResetFormSendsNameOnly | src/app/profile/page.tsx:56-61 | a form cleared after a success sends a name-only update |
| ProfileForm.FormSatisfiesServerCheck | src/app/profile/page.tsx:39-43 | a body the form sends never trips the server's "current password is required" check; the server answers 400 only for a wrong current password |
| ProfileForm.RegisterThenChangePassword | src/app/api/profile/route.ts:28-39 | after registering, changing the password from the form with the registration password as the current one succeeds and stores the new password's hash and the form's name |

## Left out

- React rendering, modals, toasts, loading states, `setTimeout` and routing. These are user interface. The schedule modal's initial field values (`src/app/page.tsx:559-564`) are UI state too.
- `fetch` and the page's data loading (`src/app/page.tsx:121-263`). This is network input and output.
- `isToday`. It reads the wall clock.
- `formatDateRange` and its month names. Dates are abstract day numbers, so real `Date` arithmetic (time zones, daylight saving, month lengths) is not modelled.
- The pixel strings `${top}px`. Offsets and heights are kept as reals.
- `timeToMinutes` on a time that is not exactly two digits, a colon and two digits. The page splits on `:` and applies `Number()`, so `"8:00"` and `"08:00:00"` would also give 480, and `"ab:cd"` gives `NaN`. `POST /api/schedules` stores any string. The model defines the conversion only for the two-digit form (`Clock.WellFormedTime`).
- Clock.TimeRoundTrip: holds for a minute field below 60. Above it, `timeToMinutes` carries into the hours and the text does not come back.
- Layout.BlockStyle: requires both times in the exact two-digit form `HH:MM`, so other spellings the page would convert (`"8:00"`) and the `NaN` path are not covered.
- Layout.BlockStyle: pixels are exact reals, so top is exactly start − 450. The page computes `(startMin / 60) * HOUR_HEIGHT` in IEEE-754 doubles, and for some minutes that is off by a rounding error (a start of 08:01 gives 31.000000000000004 rather than 31). Double-precision rounding is not modelled.
- Workload.CalculateTeacherHours: requires the teacher's own entries to have times in the exact two-digit form, for the same reason.
- Workload.DurationRoundTrip: holds for totals of 0 or more. A negative total (an entry ending before it starts) is formatted as JavaScript does it (`Workload.FormatNegativeExample`), but the reader does not parse signs.
- The seeded timetable of `prisma/seed.ts` is not evaluated as a list. Only its expected label for 410 minutes, `"6h 50m"`, is stated (`Workload.FormatExamples`).
- SchedulesApi.ListSchedules: `parseInt` gives a JavaScript number, and the model keeps it as an unbounded integer. A day text too large for the store's 32-bit integer column (or one beyond double precision) is not modelled as a store refusal.
- SchedulesApi.ListSchedules: rows come back in store order, whereas the store sorts by day and start time (`orderBy`). Related records (`include`) are not modelled.
- SubjectsApi.ListSubjects: the same, for sorting by name and the included links.
- SchedulesApi.CreateSchedule: `dayOfWeek` is an integer, `null` or absent. Other JSON values (strings, fractions) are not modelled.
- Foreign-key failures: a teacher, subject, year group or student id that does not exist. Such a failure would also end in the 500 branch.
- The `GET` handlers of teachers and year groups. Each lists every row sorted by name with relation counts, and all of that is done by the store.
- Store failures in general (connection loss, timeouts). These would also end in the 500 branch.
- The hashing inside `bcrypt` (cost 12) and how next-auth reads a session. Both are parameters.
- `src/app/api/students/route.ts`, the `[id]` routes, the auth route and `src/lib/db.ts` are not part of this model:
  - the students route lists every student sorted by name (`GET`), and creates one behind an admin guard (`POST`);
  - the `[id]` routes are per-record updates and deletions (`PUT` for schedules, subjects and teachers; `DELETE` for those and for students), with no session or role check;
  - the auth route is the next-auth set-up: a credentials sign-in that compares the password with `bcrypt.compare`, and callbacks that copy the user's id and role into the token and the session;
  - `src/lib/db.ts` is client set-up.

=== FILE: clock.dfy ===
/**
 * Conversion between `"HH:MM"` wall-clock strings and minutes since
 * midnight, as the calendar page's `timeToMinutes` and `minutesToTime` do it.
 */
module Clock {
  import opened Js

  /** Two digits, a colon, two digits. */
  predicate WellFormedTime(t: string) {
    |t| == 5 && t[2] == ':' && AllDigits(t[..2]) && AllDigits(t[3..])
  }

  function HourField(t: string): nat
    requires WellFormedTime(t)
  {
    DigitsValue(t[..2])
  }

  function MinuteField(t: string): nat
    requires WellFormedTime(t)
  {
    DigitsValue(t[3..])
  }

  /** A time of day in range: hour 0..23 and minute 0..59. */
  predicate ValidTime(t: string) {
    WellFormedTime(t) && HourField(t) <= 23 && MinuteField(t) <= 59
  }

  /** The fields of a well-formed time read digit by digit. */
  lemma TimeDigits(t: string)
    requires WellFormedTime(t)
    ensures HourField(t) == 10 * DigitValue(t[0]) + DigitValue(t[1])
    ensures MinuteField(t) == 10 * DigitValue(t[3]) + DigitValue(t[4])
  {
    TwoDigitsValue(t[..2]);
    TwoDigitsValue(t[3..]);
  }

  /** A five-character time literal with its two digit pairs denotes the minutes they spell. */
  lemma LiteralTime(t: string, m: nat)
    requires |t| == 5 && t[2] == ':' && IsDigit(t[0]) && IsDigit(t[1]) && IsDigit(t[3]) && IsDigit(t[4])
    requires DigitValue(t[0]) * 10 + DigitValue(t[1]) <= 23 && DigitValue(t[3]) * 10 + DigitValue(t[4]) <= 59
    requires m == 600 * DigitValue(t[0]) + 60 * DigitValue(t[1]) + 10 * DigitValue(t[3]) + DigitValue(t[4])
    ensures ValidTime(t) && TimeToMinutes(t) == m
  {
    assert AllDigits(t[..2]) && AllDigits(t[3..]);
    TimeDigits(t);
  }

  /**
   * `timeToMinutes`: split at the colon, read both fields as numbers and
   * combine them as hours and minutes. A minute field below 60 is exactly
   * the remainder, the hour field exactly the quotient.
   */
  function TimeToMinutes(t: string): (m: nat)
    requires WellFormedTime(t)
    ensures m <= 99 * 60 + 99
    ensures MinuteField(t) < 60 ==> m / 60 == HourField(t) && m % 60 == MinuteField(t)
  {
    TwoDigitsValue(t[..2]);
    TwoDigitsValue(t[3..]);
    HourField(t) * 60 + MinuteField(t)
  }

  /** `n.toString().padStart(2, '0')`: below 100 this is exactly two digits denoting `n`. */
  function Pad2(n: int): (p: string)
    ensures 0 <= n < 100 ==> |p| == 2 && AllDigits(p) && DigitsValue(p) == n
  {
    if 0 <= n < 100 then PadTwoDigits(n); PadStart(IntToString(n), 2, '0')
    else PadStart(IntToString(n), 2, '0')
  }

  /**
   * `minutesToTime`: `Math.floor(m / 60)` and the JavaScript remainder
   * `m % 60`, each rendered with `toString` and padded to two digits. Nothing
   * wraps: 1440 gives "24:00" and negative input gives a minus sign.
   */
  function MinutesToTime(m: int): (t: string)
    ensures 0 <= m < 100 * 60 ==> WellFormedTime(t) && HourField(t) == m / 60 && MinuteField(t) == m % 60
    ensures 0 <= m < 100 * 60 ==> TimeToMinutes(t) == m
    ensures 0 <= m < 24 * 60 ==> ValidTime(t)
  {
    // Dafny's division by a positive divisor is Math.floor's
    var hh := Pad2(m / 60);
    var mm := Pad2(Rem(m, 60));
    if 0 <= m < 100 * 60 then JoinFields(hh, mm, m); hh + ":" + mm
    else hh + ":" + mm
  }

  /** Two-digit hour and minute fields of `m`, joined by a colon, form a time denoting `m`. */
  lemma JoinFields(hh: string, mm: string, m: int)
    requires 0 <= m < 100 * 60
    requires |hh| == 2 && AllDigits(hh) && DigitsValue(hh) == m / 60
    requires |mm| == 2 && AllDigits(mm) && DigitsValue(mm) == m % 60
    ensures WellFormedTime(hh + ":" + mm)
    ensures HourField(hh + ":" + mm) == m / 60 && MinuteField(hh + ":" + mm) == m % 60
    ensures TimeToMinutes(hh + ":" + mm) == m
    ensures m < 24 * 60 ==> ValidTime(hh + ":" + mm)
  {
    var t := hh + ":" + mm;
    assert t[..2] == hh && t[3..] == mm;
  }

  /** A well-formed time is its hour field, a colon and its minute field. */
  lemma SplitAtColon(t: string)
    requires WellFormedTime(t)
    ensures t == t[..2] + [':'] + t[3..]
  {
  }

  /** `minutesToTime(timeToMinutes(t)) == t` for every well-formed time whose minute field is below 60. */
  lemma TimeRoundTrip(t: string)
    requires WellFormedTime(t) && MinuteField(t) < 60
    ensures MinutesToTime(TimeToMinutes(t)) == t
  {
    var m := TimeToMinutes(t);
    assert m / 60 == HourField(t) && m % 60 == MinuteField(t);
    TwoDigitsValue(t[..2]);
    assert m == HourField(t) * 60 + MinuteField(t);
    assert m < 100 * 60;
    var u := MinutesToTime(m);
    assert WellFormedTime(u);
    assert HourField(u) == HourField(t) && MinuteField(u) == MinuteField(t);
    TwoDigitsInjective(u[..2], t[..2]);
    TwoDigitsInjective(u[3..], t[3..]);
    SplitAtColon(u);
    SplitAtColon(t);
  }

  /** Minute counts and valid times are in one-to-one correspondence. */
  lemma MinutesRoundTrip(m: int)
    requires 0 <= m < 24 * 60
    ensures ValidTime(MinutesToTime(m)) && TimeToMinutes(MinutesToTime(m)) == m
  {
  }

  /** Two valid times with the same minute count are the same string. */
  lemma TimeInjective(a: string, b: string)
    requires ValidTime(a) && ValidTime(b)
    requires TimeToMinutes(a) == TimeToMinutes(b)
    ensures a == b
  {
    TimeRoundTrip(a);
    TimeRoundTrip(b);
  }
}

=== FILE: js.dfy ===
/**
 * The JavaScript value semantics the timetable code leans on: truthiness of
 * optional strings, the `%` operator, `Number.prototype.toString` on integers,
 * `String.prototype.padStart` and `parseInt`.
 */
module Js {

  /** An optional value; `None` stands for `undefined` (or `null`). */
  datatype Option<+T> = None | Some(value: T)

  /** JavaScript truthiness of an optional string: `undefined`, `null` and `""` are falsy. */
  predicate Truthy(o: Option<string>) {
    o.Some? && o.value != ""
  }

  /** JavaScript truthiness of an optional array (`xs?.length`): absent or empty is falsy. */
  predicate NonEmpty<T>(o: Option<seq<T>>) {
    o.Some? && |o.value| > 0
  }

  /** The quotient of `a / b` truncated toward zero, as JavaScript's `Math.trunc(a / b)`. */
  function Trunc(a: int, b: int): int
    requires b > 0
  {
    if a >= 0 then a / b else -((-a) / b)
  }

  /**
   * `a % b` for a positive divisor. Unlike Dafny's Euclidean `%`, the
   * JavaScript remainder takes the sign of the dividend.
   */
  function Rem(a: int, b: int): (r: int)
    requires b > 0
    ensures a == b * Trunc(a, b) + r
    ensures a >= 0 ==> 0 <= r < b
    ensures a < 0 ==> -b < r <= 0
  {
    if a >= 0 then a % b
    else
      var q := (-a) / b;
      assert -a == b * q + (-a) % b;
      assert b * -q == -(b * q);
      -((-a) % b)
  }

  // ----- decimal digits -----

  predicate IsDigit(c: char) {
    '0' <= c <= '9'
  }

  predicate AllDigits(s: string) {
    forall i :: 0 <= i < |s| ==> IsDigit(s[i])
  }

  function DigitValue(c: char): (d: nat)
    requires IsDigit(c)
    ensures d < 10
  {
    c as int - '0' as int
  }

  function DigitChar(d: nat): (c: char)
    requires d < 10
    ensures IsDigit(c) && DigitValue(c) == d
  {
    ('0' as int + d) as char
  }

  /** The number a string of decimal digits denotes, as `Number("07") == 7`. */
  function DigitsValue(s: string): nat
    requires AllDigits(s)
  {
    if |s| == 0 then 0 else 10 * DigitsValue(s[..|s| - 1]) + DigitValue(s[|s| - 1])
  }

  /** Decimal rendering of a natural number, as `n.toString()` produces it. */
  function NatToDecimal(n: nat): (s: string)
    ensures 1 <= |s| && AllDigits(s)
    ensures DigitsValue(s) == n
    ensures s[0] == '0' <==> n == 0
    ensures |s| == 1 <==> n < 10
    ensures |s| == 2 <==> 10 <= n < 100
  {
    if n < 10 then [DigitChar(n)]
    else
      var s := NatToDecimal(n / 10) + [DigitChar(n % 10)];
      assert s[..|s| - 1] == NatToDecimal(n / 10);
      s
  }

  /** A decimal numeral as `toString` writes it: digits, and no leading `0` unless it is the only digit. */
  predicate CanonicalDigits(d: string) {
    |d| > 0 && AllDigits(d) && (|d| == 1 || d[0] != '0')
  }

  /** Digits whose value is zero are all `0`. */
  lemma {:induction false} ZeroValueAllZeros(d: string)
    requires AllDigits(d) && DigitsValue(d) == 0
    ensures forall i :: 0 <= i < |d| ==> d[i] == '0'
  {
    if |d| > 0 {
      ZeroValueAllZeros(d[..|d| - 1]);
      assert forall i :: 0 <= i < |d| - 1 ==> d[i] == d[..|d| - 1][i];
    }
  }

  /** `toString` writes back every canonical numeral it is given the value of. */
  lemma {:induction false} NatToDecimalOfCanonical(d: string)
    requires CanonicalDigits(d)
    ensures NatToDecimal(DigitsValue(d)) == d
  {
    if |d| > 1 {
      var p := d[..|d| - 1];
      assert p[0] == d[0];
      if DigitsValue(p) == 0 {
        ZeroValueAllZeros(p);
        assert false;
      }
      NatToDecimalOfCanonical(p);
      var n := DigitsValue(d);
      assert n / 10 == DigitsValue(p) && n % 10 == DigitValue(d[|d| - 1]);
      assert DigitChar(n % 10) == d[|d| - 1];
      assert d == p + [d[|d| - 1]];
    } else {
      assert DigitChar(DigitValue(d[0])) == d[0];
    }
  }

  /** What `toString` writes for a natural number is canonical. */
  lemma NatToDecimalCanonical(n: nat)
    ensures CanonicalDigits(NatToDecimal(n))
  {
  }

  /** `i.toString()` for an integer: a minus sign, then the decimal digits of the magnitude. */
  function IntToString(i: int): (s: string)
    ensures 1 <= |s|
    ensures s[0] == '-' <==> i < 0
    ensures i >= 0 ==> AllDigits(s) && DigitsValue(s) == i
  {
    if i < 0 then "-" + NatToDecimal(-i) else NatToDecimal(i)
  }

  /** `s.padStart(n, c)` with a one-character pad string: fill with `c` on the left up to length `n`. */
  function PadStart(s: string, n: nat, c: char): (r: string)
    decreases n - |s|
    ensures |r| == if |s| >= n then |s| else n
    ensures r[|r| - |s|..] == s
    ensures forall i :: 0 <= i < |r| - |s| ==> r[i] == c
  {
    if |s| >= n then s
    else
      var r := PadStart([c] + s, n, c);
      PadStep(c, s, r);
      r
  }

  /** One more pad character: a text ending in `[c] + s` after pad characters ends in `s` after pad characters. */
  lemma PadStep(c: char, s: string, r: string)
    requires |r| > |s| && r[|r| - |s| - 1..] == [c] + s
    requires forall i :: 0 <= i < |r| - |s| - 1 ==> r[i] == c
    ensures r[|r| - |s|..] == s
    ensures forall i :: 0 <= i < |r| - |s| ==> r[i] == c
  {
    assert r[|r| - |s|..] == r[|r| - |s| - 1..][1..];
    assert r[|r| - |s| - 1] == ([c] + s)[0];
  }

  /** Two-digit padding of a number below 100 yields exactly two digits denoting it. */
  lemma PadTwoDigits(n: nat)
    requires n < 100
    ensures var p := PadStart(IntToString(n), 2, '0');
      |p| == 2 && AllDigits(p) && DigitsValue(p) == n
  {
    var d := NatToDecimal(n);
    var p := PadStart(d, 2, '0');
    if n < 10 {
      assert p == ['0'] + d;
      assert p[..1] == ['0'];
      assert DigitsValue(p[..1]) == 0;
    }
  }

  /** A two-digit string denotes ten times its first digit plus its second. */
  lemma TwoDigitsValue(s: string)
    requires |s| == 2 && AllDigits(s)
    ensures DigitsValue(s) == 10 * DigitValue(s[0]) + DigitValue(s[1])
    ensures DigitsValue(s) < 100
  {
    assert s[..|s| - 1] == s[..1];
    assert s[..1][..0] == [];
    assert DigitsValue(s[..1]) == DigitValue(s[0]);
  }

  /** Two digit strings that denote the same number are the same string. */
  lemma TwoDigitsInjective(a: string, b: string)
    requires |a| == 2 && |b| == 2 && AllDigits(a) && AllDigits(b)
    requires DigitsValue(a) == DigitsValue(b)
    ensures a == b
  {
    TwoDigitsValue(a);
    TwoDigitsValue(b);
  }

  // ----- parseInt -----

  /** The characters `parseInt` skips before the number (ECMAScript WhiteSpace and LineTerminator). */
  predicate IsSpace(c: char) {
    c == '\t' || c == '\n' || c == '\U{000B}' || c == '\U{000C}' || c == '\r' || c == ' '
    || c == '\U{00A0}' || c == '\U{1680}' || ('\U{2000}' <= c <= '\U{200A}')
    || c == '\U{2028}' || c == '\U{2029}' || c == '\U{202F}' || c == '\U{205F}'
    || c == '\U{3000}' || c == '\U{FEFF}'
  }

  /** `s` with its leading white space removed. */
  function TrimStart(s: string): (t: string)
    ensures |t| <= |s| && t == s[|s| - |t|..]
    ensures |t| > 0 ==> !IsSpace(t[0])
    ensures forall i :: 0 <= i < |s| - |t| ==> IsSpace(s[i])
  {
    if |s| > 0 && IsSpace(s[0]) then TrimStart(s[1..]) else s
  }

  /** The longest prefix of `s` made of decimal digits. */
  function LeadingDigits(s: string): (p: string)
    ensures |p| <= |s| && p == s[..|p|] && AllDigits(p)
    ensures |p| < |s| ==> !IsDigit(s[|p|])
  {
    if |s| > 0 && IsDigit(s[0]) then [s[0]] + LeadingDigits(s[1..]) else []
  }

  /** A digit of base 16, in either case. */
  predicate IsHexDigit(c: char) {
    IsDigit(c) || 'a' <= c <= 'f' || 'A' <= c <= 'F'
  }

  function HexDigitValue(c: char): (v: nat)
    requires IsHexDigit(c)
    ensures v < 16
    ensures IsDigit(c) ==> v == DigitValue(c)
  {
    if IsDigit(c) then DigitValue(c)
    else if 'a' <= c <= 'f' then c as int - 'a' as int + 10
    else c as int - 'A' as int + 10
  }

  /** The number a string of hexadecimal digits denotes. */
  function HexDigitsValue(s: string): nat
    requires forall i :: 0 <= i < |s| ==> IsHexDigit(s[i])
  {
    if |s| == 0 then 0 else 16 * HexDigitsValue(s[..|s| - 1]) + HexDigitValue(s[|s| - 1])
  }

  /** The longest prefix of `s` made of hexadecimal digits. */
  function LeadingHexDigits(s: string): (p: string)
    ensures |p| <= |s| && p == s[..|p|]
    ensures forall i :: 0 <= i < |p| ==> IsHexDigit(p[i])
    ensures |p| < |s| ==> !IsHexDigit(s[|p|])
  {
    if |s| > 0 && IsHexDigit(s[0]) then [s[0]] + LeadingHexDigits(s[1..]) else []
  }

  /** `t` with one leading sign character removed. */
  function Unsigned(t: string): string {
    if |t| > 0 && (t[0] == '-' || t[0] == '+') then t[1..] else t
  }

  /** Whether the unsigned text starts with `0x` or `0X`, which switches `parseInt` to base 16. */
  predicate HexPrefixed(u: string) {
    |u| >= 2 && u[0] == '0' && (u[1] == 'x' || u[1] == 'X')
  }

  /**
   * The magnitude `parseInt` reads after the sign: with a `0x`/`0X` prefix,
   * as many hexadecimal digits as follow it; otherwise as many decimal
   * digits as follow. `None` when there is no digit to read.
   */
  function Magnitude(u: string): (m: Option<int>)
    ensures m.Some? ==> m.value >= 0
    ensures HexPrefixed(u) ==>
      (m.None? <==> |LeadingHexDigits(u[2..])| == 0)
      && (m.Some? ==> m.value == HexDigitsValue(LeadingHexDigits(u[2..])))
    ensures !HexPrefixed(u) ==>
      (m.None? <==> |LeadingDigits(u)| == 0)
      && (m.Some? ==> m.value == DigitsValue(LeadingDigits(u)))
  {
    if HexPrefixed(u) then
      var h := LeadingHexDigits(u[2..]);
      if |h| == 0 then None else Some(HexDigitsValue(h))
    else
      var d := LeadingDigits(u);
      if |d| == 0 then None else Some(DigitsValue(d))
  }

  /**
   * `parseInt(s)` with no radix (section 19.2.5 of ECMA-262): skip white
   * space, read an optional sign, then a `0x`/`0X` prefix switches to base
   * 16; read as many digits of the base as follow. `None` models `NaN` (no
   * digit at all, so `"0x"` alone is `NaN`). A negative zero is the number 0.
   */
  function ParseInt(s: string): (r: Option<int>)
    ensures r.None? <==> Magnitude(Unsigned(TrimStart(s))).None?
    ensures r.Some? ==>
      var t := TrimStart(s);
      (|t| > 0 && t[0] == '-' ==> r.value == 0 - Magnitude(Unsigned(t)).value)
      && (!(|t| > 0 && t[0] == '-') ==> r.value == Magnitude(Unsigned(t)).value)
  {
    var t := TrimStart(s);
    match Magnitude(Unsigned(t))
    case None => None
    case Some(m) => if |t| > 0 && t[0] == '-' then Some(0 - m) else Some(m)
  }

  /** Whether every character of `s` is a hexadecimal digit. */
  predicate AllHexDigits(s: string) {
    forall i :: 0 <= i < |s| ==> IsHexDigit(s[i])
  }

  lemma {:induction false} LeadingHexDigitsOfHex(h: string)
    requires AllHexDigits(h)
    ensures LeadingHexDigits(h) == h
  {
    if |h| > 0 {
      LeadingHexDigitsOfHex(h[1..]);
    }
  }

  /** A text that starts with no white space is its own `TrimStart`. */
  lemma TrimStartOfNonSpace(s: string)
    requires |s| > 0 && !IsSpace(s[0])
    ensures TrimStart(s) == s
  {
  }

  /** `0x` or `0X` followed by hexadecimal digits: base 16, `None` when no digit follows. */
  lemma MagnitudeOfHex(x: char, h: string)
    requires x == 'x' || x == 'X'
    requires AllHexDigits(h)
    ensures |h| == 0 ==> Magnitude(['0', x] + h) == None
    ensures |h| > 0 ==> Magnitude(['0', x] + h) == Some(HexDigitsValue(h))
  {
    assert (['0', x] + h)[2..] == h;
    LeadingHexDigitsOfHex(h);
  }

  /**
   * An optional minus sign, then `0x` or `0X`, then hexadecimal digits:
   * the number those digits denote in base 16, negated after the sign; the
   * prefix with no digit after it is `NaN`.
   */
  lemma {:induction false} ParseIntOfHex(s: string, negative: bool, x: char, h: string)
    requires x == 'x' || x == 'X'
    requires AllHexDigits(h)
    requires s == (if negative then "-" else "") + (['0', x] + h)
    ensures |h| == 0 ==> ParseInt(s) == None
    ensures |h| > 0 ==> ParseInt(s) == Some(if negative then 0 - HexDigitsValue(h) else HexDigitsValue(h))
  {
    MagnitudeOfHex(x, h);
    assert s[0] == '-' <==> negative;
    assert Unsigned(s) == ['0', x] + h;
    ParseIntWithoutSpace(s);
  }

  /** A text with no leading white space: `parseInt` applies its sign to the magnitude after it. */
  lemma ParseIntWithoutSpace(s: string)
    requires |s| > 0 && !IsSpace(s[0])
    ensures Magnitude(Unsigned(s)).None? ==> ParseInt(s) == None
    ensures Magnitude(Unsigned(s)).Some? && s[0] == '-' ==> ParseInt(s) == Some(0 - Magnitude(Unsigned(s)).value)
    ensures Magnitude(Unsigned(s)).Some? && s[0] != '-' ==> ParseInt(s) == Some(Magnitude(Unsigned(s)).value)
  {
    TrimStartOfNonSpace(s);
  }

  /** The base-16 values used in the examples below. */
  lemma HexDigitsValues()
    ensures HexDigitsValue("1") == 1
    ensures HexDigitsValue("10") == 16
  {
    assert "1"[..0] == "";
    assert "10"[..1] == "1";
  }

  /** With the `0x` prefix `parseInt` reads base 16: `"0x1"` is 1, where base 10 would stop at the `x` and give 0. */
  lemma ParseIntHexExamples()
    ensures ParseInt("0x1") == Some(1)
  {
    HexDigitsValues();
    ParseIntOfHex("0x1", false, 'x', "1");
  }

  /** The prefix with no digit after it is `NaN`. */
  lemma ParseIntBareHexPrefix()
    ensures ParseInt("0x") == None
  {
    ParseIntOfHex("0x", false, 'x', "");
  }

  /** A sign comes before the prefix: `"-0x10"` is minus sixteen. */
  lemma ParseIntNegativeHex()
    ensures ParseInt("-0x10") == Some(-16)
  {
    HexDigitsValues();
    ParseIntOfHex("-0x10", true, 'x', "10");
  }

  /** The decimal value of `"012"`. */
  lemma DigitsValueOf012()
    ensures DigitsValue("012") == 12
  {
    assert "012"[..2] == "01";
    assert "01"[..1] == "0";
    assert "0"[..0] == "";
  }

  /** Without the prefix a leading zero is an ordinary decimal digit: `"012"` is 12. */
  lemma ParseIntLeadingZero()
    ensures ParseInt("012") == Some(12)
  {
    ParseIntOfDigits("012");
    DigitsValueOf012();
  }

  lemma {:induction false} LeadingDigitsOfDigits(s: string)
    requires AllDigits(s)
    ensures LeadingDigits(s) == s
  {
    if |s| > 0 {
      LeadingDigitsOfDigits(s[1..]);
    }
  }

  /** `parseInt` reads back what `toString` wrote, for every integer. */
  lemma ParseIntOfIntToString(i: int)
    ensures ParseInt(IntToString(i)) == Some(i)
  {
    var s := IntToString(i);
    var d := NatToDecimal(if i < 0 then -i else i);
    assert !IsSpace(s[0]);
    assert TrimStart(s) == s;
    assert Unsigned(s) == d;
    assert !HexPrefixed(d) by { if |d| >= 2 { assert IsDigit(d[1]); } }
    LeadingDigitsOfDigits(d);
  }

  /** A non-empty string of decimal digits parses to the number it denotes. */
  lemma ParseIntOfDigits(s: string)
    requires |s| > 0 && AllDigits(s)
    ensures ParseInt(s) == Some(DigitsValue(s))
  {
    assert !IsSpace(s[0]);
    assert !HexPrefixed(s) by { if |s| >= 2 { assert IsDigit(s[1]); } }
    assert TrimStart(s) == s;
    assert Unsigned(s) == s;
    LeadingDigitsOfDigits(s);
  }
}

=== FILE: layout.dfy ===
/**
 * The calendar grid's geometry: the grid runs from the school start (07:30)
 * to 16:30, one row per hour, 60 pixels per hour, so one pixel is one
 * minute. Schedule blocks and the two lunch bands are placed with the same
 * linear formula; clicking an hour row prefills a one-hour slot.
 */
module Layout {
  import opened Js
  import opened Clock
  import Types

  /** The grid starts at the school start, 07:30. */
  const GridStart: nat := 450
  /** The grid end is fixed at 16:30; `SchoolEnd` plays no part in the layout. */
  const GridEnd: nat := 990
  const HourHeight: nat := 60

  /**
   * The grid runs from the school start (07:30) to 16:30, well past the
   * 14:15 school end; both lunch breaks are valid times of day.
   */
  lemma GridBounds()
    ensures ValidTime(Types.SchoolStart) && GridStart == TimeToMinutes(Types.SchoolStart)
    ensures ValidTime("16:30") && GridEnd == TimeToMinutes("16:30")
    ensures ValidTime(Types.SchoolEnd) && TimeToMinutes(Types.SchoolEnd) == 855 < GridEnd
    ensures ValidTime(Types.LunchBreak1Start) && TimeToMinutes(Types.LunchBreak1Start) == 680
    ensures ValidTime(Types.LunchBreak1End) && TimeToMinutes(Types.LunchBreak1End) == 735
    ensures ValidTime(Types.LunchBreak2Start) && TimeToMinutes(Types.LunchBreak2Start) == 735
    ensures ValidTime(Types.LunchBreak2End) && TimeToMinutes(Types.LunchBreak2End) == 795
  {
    LiteralTime(Types.SchoolStart, 450);
    LiteralTime("16:30", 990);
    LiteralTime(Types.SchoolEnd, 855);
    LiteralTime(Types.LunchBreak1Start, 680);
    LiteralTime(Types.LunchBreak1End, 735);
    LiteralTime(Types.LunchBreak2End, 795);
  }

  /** Pixel placement of a block: offset from the grid top and height. */
  datatype Style = Style(top: real, height: real)

  /**
   * `getBlockStyle`: the block's offset and height in pixels. With 60 pixels
   * per hour a pixel is a minute, so the offset is the minutes since 07:30
   * and the height the minutes the block lasts. Nothing is clipped.
   */
  function BlockStyle(startTime: string, endTime: string): (s: Style)
    requires WellFormedTime(startTime) && WellFormedTime(endTime)
    ensures s.top == (TimeToMinutes(startTime) - GridStart) as real
    ensures s.height == (TimeToMinutes(endTime) - TimeToMinutes(startTime)) as real
  {
    var startMin := TimeToMinutes(startTime) - GridStart;
    var endMin := TimeToMinutes(endTime) - GridStart;
    Style((startMin as real / 60.0) * HourHeight as real,
          ((endMin - startMin) as real / 60.0) * HourHeight as real)
  }

  /** The grid's height in pixels: nine hours. */
  function GridHeight(): real {
    ((GridEnd - GridStart) as real / 60.0) * HourHeight as real
  }

  /**
   * A block whose interval lies within 07:30..16:30 lies within the grid; a
   * block starting before 07:30 gets a negative offset, one ending after
   * 16:30 runs past the bottom, and a block whose end precedes its start
   * gets a negative height.
   */
  lemma BlockPlacement(startTime: string, endTime: string)
    requires WellFormedTime(startTime) && WellFormedTime(endTime)
    ensures var s := BlockStyle(startTime, endTime);
      && GridHeight() == 540.0
      && ((GridStart <= TimeToMinutes(startTime) <= TimeToMinutes(endTime) <= GridEnd)
            ==> 0.0 <= s.top && s.top + s.height <= GridHeight())
      && (TimeToMinutes(startTime) < GridStart <==> s.top < 0.0)
      && (TimeToMinutes(endTime) > GridEnd <==> s.top + s.height > GridHeight())
      && (TimeToMinutes(endTime) < TimeToMinutes(startTime) <==> s.height < 0.0)
  {
    GridBounds();
  }

  /** The number of hour rows: one per hour from the grid start through the grid end. */
  const SlotCount: nat := (GridEnd - GridStart) / 60 + 1

  /**
   * What the time column holds: row `i` is a valid time exactly `i` hours
   * after the grid start.
   */
  predicate TimeColumn(slots: seq<string>) {
    forall i :: 0 <= i < |slots| ==> ValidTime(slots[i]) && TimeToMinutes(slots[i]) == GridStart + 60 * i
  }

  /** The label of a minute count inside the grid is a valid time denoting it. */
  lemma GridLabel(m: int)
    requires GridStart <= m <= GridEnd + 60
    ensures ValidTime(MinutesToTime(m)) && TimeToMinutes(MinutesToTime(m)) == m
  {
  }

  /** Appending the label of the next hour keeps a time column a time column. */
  lemma ExtendTimeColumn(slots: seq<string>, t: string)
    requires TimeColumn(slots)
    requires ValidTime(t) && TimeToMinutes(t) == GridStart + 60 * |slots|
    ensures TimeColumn(slots + [t])
  {
  }

  /**
   * `TIME_SLOTS`: from the grid start, push the label of every hour while not
   * past the grid end. The result is a time column of ten rows.
   */
  method BuildTimeSlots() returns (slots: seq<string>)
    ensures |slots| == SlotCount == 10
    ensures TimeColumn(slots)
  {
    slots := [];
    var m := GridStart;
    while m <= GridEnd
      invariant GridStart <= m <= GridEnd + 60
      invariant m == GridStart + 60 * |slots|
      invariant TimeColumn(slots)
    {
      GridLabel(m);
      ExtendTimeColumn(slots, MinutesToTime(m));
      slots := slots + [MinutesToTime(m)];
      m := m + 60;
    }
  }

  /**
   * A ten-row time column runs 07:30, 08:30, …, 16:30: it starts at 07:30,
   * ends at 16:30 and strictly increases.
   */
  lemma TimeColumnLabels(slots: seq<string>)
    requires |slots| == SlotCount && TimeColumn(slots)
    ensures slots[0] == "07:30" && slots[9] == "16:30"
    ensures forall i, j :: 0 <= i < j < |slots| ==> TimeToMinutes(slots[i]) < TimeToMinutes(slots[j])
  {
    GridBounds();
    TimeInjective(slots[0], "07:30");
    TimeInjective(slots[9], "16:30");
  }

  /** A time column is determined by its length: the loop's result is the only one. */
  lemma TimeColumnUnique(slots: seq<string>, other: seq<string>)
    requires |slots| == |other| && TimeColumn(slots) && TimeColumn(other)
    ensures slots == other
  {
    forall i | 0 <= i < |slots|
      ensures slots[i] == other[i]
    {
      TimeInjective(slots[i], other[i]);
    }
  }

  /** The two lunch bands, placed with the block formula. */
  function LunchZones(): (zones: seq<Style>)
    ensures |zones| == 2
  {
    [BlockStyle(Types.LunchBreak1Start, Types.LunchBreak1End),
     BlockStyle(Types.LunchBreak2Start, Types.LunchBreak2End)]
  }

  /**
   * The first lunch band covers 11:20–12:15 and the second 12:15–13:15; the
   * first ends where the second starts, and both lie inside the grid.
   */
  lemma LunchZonesContiguous()
    ensures var z := LunchZones();
      && z[0].top == 230.0 && z[0].height == 55.0
      && z[1].top == 285.0 && z[1].height == 60.0
      && z[0].top + z[0].height == z[1].top
      && 0.0 <= z[0].top && z[1].top + z[1].height <= GridHeight()
  {
    GridBounds();
  }

  /** The labels of hour row `row` and of the hour after it are valid times one hour apart. */
  lemma RowSlot(row: nat)
    requires row < SlotCount
    ensures ValidTime(MinutesToTime(GridStart + 60 * row))
    ensures ValidTime(MinutesToTime(GridStart + 60 * row + 60))
    ensures TimeToMinutes(MinutesToTime(GridStart + 60 * row)) == GridStart + 60 * row
    ensures TimeToMinutes(MinutesToTime(GridStart + 60 * row + 60)) == GridStart + 60 * row + 60
  {
    GridLabel(GridStart + 60 * row);
    GridLabel(GridStart + 60 * row + 60);
  }

  /** The slot a click on an hour row proposes for a new schedule entry. */
  datatype Prefill = Prefill(dayOfWeek: int, startTime: string, endTime: string, yearGroupId: string)

  /**
   * Clicking hour row `row` of column `dayIndex` proposes a one-hour slot
   * starting at that row's time, in the selected year group.
   */
  function PrefillFor(dayIndex: int, row: nat, yearGroupId: string): (p: Prefill)
    requires row < SlotCount
    ensures p.dayOfWeek == dayIndex && p.yearGroupId == yearGroupId
    ensures ValidTime(p.startTime) && ValidTime(p.endTime)
    ensures TimeToMinutes(p.startTime) == GridStart + 60 * row
    ensures TimeToMinutes(p.endTime) == TimeToMinutes(p.startTime) + 60
  {
    var startTime := MinutesToTime(GridStart + 60 * row);
    var endTime := MinutesToTime(GridStart + 60 * row + 60);
    RowSlot(row);
    Prefill(dayIndex, startTime, endTime, yearGroupId)
  }

  /** The proposed start is the very label shown on the clicked row of the time column. */
  lemma PrefillMatchesRowLabel(slots: seq<string>, dayIndex: int, row: nat, yearGroupId: string)
    requires TimeColumn(slots) && row < |slots| && row < SlotCount
    ensures PrefillFor(dayIndex, row, yearGroupId).startTime == slots[row]
  {
    TimeInjective(PrefillFor(dayIndex, row, yearGroupId).startTime, slots[row]);
  }
}

=== FILE: profile_api.dfy ===
/**
 * `PUT /api/profile`: the signed-in user changes their name and, on giving
 * the current password, their password. The hash and compare functions of
 * bcrypt are parameters the model does not look inside.
 */
module ProfileApi {
  import opened Js
  import opened Store

  /**
   * The request body. `name` tells an absent key (the store leaves the name
   * alone) from `null` (the name is cleared).
   */
  datatype ProfileBody = ProfileBody(name: Field<string>, currentPassword: Option<string>, newPassword: Option<string>)

  /** `session?.user?.email`, when it is truthy. */
  predicate SignedIn(session: Option<Session>) {
    session.Some? && Truthy(session.value.email)
  }

  /** The name after an update that carries `name`. */
  function NameAfter(current: Option<string>, name: Field<string>): (n: Option<string>)
    ensures name.Undefined? ==> n == current
    ensures name.Null? ==> n == None
    ensures name.Given? ==> n == Some(name.value)
  {
    match name
    case Undefined => current
    case Null => None
    case Given(v) => Some(v)
  }

  /**
   * `PUT /api/profile`. `hash` is `bcrypt.hash` and `compare(p, h)` is
   * `bcrypt.compare`, true when `h` is a hash of `p`.
   */
  function UpdateProfile(session: Option<Session>, body: ProfileBody, db: Db,
                         hash: string -> string, compare: (string, string) -> bool): (out: Outcome)
    ensures !SignedIn(session) ==> out == Outcome(Unauthorized, db)
    ensures SignedIn(session) && session.value.email.value !in db.users ==> out == Outcome(NotFound, db)
    ensures out.status == Ok <==>
      SignedIn(session) && session.value.email.value in db.users
      && (Truthy(body.newPassword) ==>
            Truthy(body.currentPassword)
            && compare(body.currentPassword.value, db.users[session.value.email.value].password))
    ensures out.status != Ok ==> out.db == db
    ensures out.status == Ok ==>
      var email := session.value.email.value;
      var user := db.users[email];
      out.db == db.(users := db.users[email := user.(
        name := NameAfter(user.name, body.name),
        password := if Truthy(body.newPassword) then hash(body.newPassword.value) else user.password)])
  {
    if !SignedIn(session) then Outcome(Unauthorized, db)
    else
      var email := session.value.email.value;
      if email !in db.users then Outcome(NotFound, db)
      else
        var user := db.users[email];
        var renamed := user.(name := NameAfter(user.name, body.name));
        if Truthy(body.newPassword) then
          if !Truthy(body.currentPassword) then Outcome(BadRequest, db)
          else if !compare(body.currentPassword.value, user.password) then Outcome(BadRequest, db)
          else Outcome(Ok, db.(users := db.users[email := renamed.(password := hash(body.newPassword.value))]))
        else Outcome(Ok, db.(users := db.users[email := renamed]))
  }

  /** A new password without the current one, or with a wrong one, is refused with 400 and nothing is updated. */
  lemma PasswordChangeNeedsCurrent(session: Option<Session>, body: ProfileBody, db: Db,
                                   hash: string -> string, compare: (string, string) -> bool)
    requires SignedIn(session) && session.value.email.value in db.users
    requires Truthy(body.newPassword)
    requires !Truthy(body.currentPassword)
             || !compare(body.currentPassword.value, db.users[session.value.email.value].password)
    ensures UpdateProfile(session, body, db, hash, compare) == Outcome(BadRequest, db)
  {
  }

  /**
   * A successful update touches only the caller's account and keeps its key
   * and e-mail; without a new password the stored hash is kept.
   */
  lemma UpdateKeepsKey(session: Option<Session>, body: ProfileBody, db: Db,
                       hash: string -> string, compare: (string, string) -> bool)
    requires UpdateProfile(session, body, db, hash, compare).status == Ok
    ensures var users := UpdateProfile(session, body, db, hash, compare).db.users;
      var email := session.value.email.value;
      users.Keys == db.users.Keys
      && users[email].email == db.users[email].email
      && (forall e :: e in db.users && e != email ==> users[e] == db.users[e])
      && (!Truthy(body.newPassword) ==> users[email].password == db.users[email].password)
  {
    var users := UpdateProfile(session, body, db, hash, compare).db.users;
    assert users.Keys == db.users.Keys;
  }

  /** If every account is filed under its own e-mail before an update, so it is after. */
  lemma UpdateKeepsUsersKeyedByEmail(session: Option<Session>, body: ProfileBody, db: Db,
                                     hash: string -> string, compare: (string, string) -> bool)
    requires UsersKeyedByEmail(db.users)
    ensures UsersKeyedByEmail(UpdateProfile(session, body, db, hash, compare).db.users)
  {
  }
}

=== FILE: profile_form.dfy ===
/**
 * The profile page's form: two checks that decide whether a request is sent
 * at all, the request body it sends, and the reset after a success; and how
 * the form's checks line up with the server's.
 */
module ProfileForm {
  import opened Js
  import opened Store
  import opened ProfileApi
  import RegisterApi

  /** The four input fields of the form; an untouched field holds `""`. */
  datatype Form = Form(name: string, currentPassword: string, newPassword: string, confirmPassword: string)

  /** What pressing the button does: show an error and send nothing, or send a body. */
  datatype Submission = Rejected(message: string) | Send(body: ProfileBody)

  const MismatchMessage: string := "New passwords do not match"
  const CurrentRequiredMessage: string := "Current password is required to change password"

  /** `s || undefined`: the empty string is sent as an absent key. */
  function PresentIfFilled(s: string): (o: Option<string>)
    ensures o.None? <==> s == ""
    ensures o.Some? ==> o.value == s
  {
    if s == "" then None else Some(s)
  }

  /**
   * `handleSubmit`: a filled new password must match its confirmation, then
   * needs the current password; only then is the body sent, with the name
   * always and each password only when filled.
   */
  function Submit(f: Form): (r: Submission)
    ensures f.newPassword != "" && f.newPassword != f.confirmPassword ==> r == Rejected(MismatchMessage)
    ensures f.newPassword != "" && f.newPassword == f.confirmPassword ==>
      (f.currentPassword == "" ==> r == Rejected(CurrentRequiredMessage))
    ensures r.Send? <==> f.newPassword == "" || (f.newPassword == f.confirmPassword && f.currentPassword != "")
    ensures r.Send? ==> r.body.name == Given(f.name)
  {
    if f.newPassword != "" && f.newPassword != f.confirmPassword then Rejected(MismatchMessage)
    else if f.newPassword != "" && f.currentPassword == "" then Rejected(CurrentRequiredMessage)
    else Send(ProfileBody(Given(f.name), PresentIfFilled(f.currentPassword), PresentIfFilled(f.newPassword)))
  }

  /** A field read back from the body: an absent password is an empty field. */
  function Filled(o: Option<string>): string {
    if o.Some? then o.value else ""
  }

  /** The body sent carries the form's name and passwords unchanged, empty fields as absent keys. */
  lemma PayloadKeepsFields(f: Form)
    requires Submit(f).Send?
    ensures Submit(f).body.name == Given(f.name)
    ensures Filled(Submit(f).body.currentPassword) == f.currentPassword
    ensures Filled(Submit(f).body.newPassword) == f.newPassword
  {
  }

  /** The mismatch check comes first: with a mismatched confirmation, the current password does not matter. */
  lemma MismatchCheckedFirst(f: Form, current: string)
    requires f.newPassword != "" && f.newPassword != f.confirmPassword
    ensures Submit(f.(currentPassword := current)) == Submit(f) == Rejected(MismatchMessage)
  {
  }

  /** After the server answers, a success clears the three password fields; a failure keeps the form. */
  function AfterResponse(f: Form, ok: bool): (g: Form)
    ensures g.name == f.name
    ensures ok ==> g.currentPassword == "" && g.newPassword == "" && g.confirmPassword == ""
    ensures !ok ==> g == f
  {
    if ok then f.(currentPassword := "", newPassword := "", confirmPassword := "") else f
  }

  /** A cleared form sends a name-only update: no password leaves the page twice. */
  lemma ResetFormSendsNameOnly(f: Form)
    ensures Submit(AfterResponse(f, true)) == Send(ProfileBody(Given(f.name), None, None))
  {
  }

  /**
   * A body the form sends never trips the server's own "current password is
   * required" check: the server refuses it with 400 only when the current
   * password does not match.
   */
  lemma FormSatisfiesServerCheck(f: Form, session: Option<Session>, db: Db,
                                 hash: string -> string, compare: (string, string) -> bool)
    requires Submit(f).Send?
    requires SignedIn(session) && session.value.email.value in db.users
    ensures var out := UpdateProfile(session, Submit(f).body, db, hash, compare);
      out.status == BadRequest <==> f.newPassword != "" && !compare(f.currentPassword, db.users[session.value.email.value].password)
    ensures UpdateProfile(session, Submit(f).body, db, hash, compare).status in {Ok, BadRequest}
  {
  }

  /**
   * Register, then change the password from the profile form giving the
   * registration password as the current one: with a `compare` that accepts
   * a password against its own hash, the change goes through, the account
   * now holds the hash of the new password and the form's name.
   */
  lemma RegisterThenChangePassword(reg: RegisterApi.RegisterBody, db: Db, f: Form, role: string,
                                   hash: string -> string, compare: (string, string) -> bool)
    requires RegisterApi.Register(reg, db, hash).status == Ok
    requires compare(reg.password.value, hash(reg.password.value))
    requires f.currentPassword == reg.password.value
    requires f.newPassword != "" && f.confirmPassword == f.newPassword
    ensures var after := RegisterApi.Register(reg, db, hash).db;
      var sent := Submit(f);
      var out := UpdateProfile(Some(Session(reg.email, role)), sent.body, after, hash, compare);
      sent.Send? && out.status == Ok
      && out.db.users[reg.email.value] == User(reg.email.value, Some(f.name), hash(f.newPassword))
  {
  }
}

=== FILE: register_api.dfy ===
/**
 * `POST /api/register`: opens a login account. Users are filed by e-mail;
 * the password is stored only as its hash. The password hash function
 * (bcrypt with cost 12) is a parameter the model does not look inside.
 */
module RegisterApi {
  import opened Js
  import opened Store

  /** The request body; `name` is optional and never checked. */
  datatype RegisterBody = RegisterBody(email: Option<string>, name: Option<string>, password: Option<string>)

  /** The account a successful registration files under the body's e-mail. */
  function NewUser(body: RegisterBody, hash: string -> string): (u: User)
    requires Truthy(body.email) && Truthy(body.password)
    ensures u.email == body.email.value && u.name == body.name
    ensures u.password == hash(body.password.value)
  {
    User(body.email.value, body.name, hash(body.password.value))
  }

  /** `POST /api/register`. */
  function Register(body: RegisterBody, db: Db, hash: string -> string): (out: Outcome)
    ensures !(Truthy(body.email) && Truthy(body.password)) ==> out == Outcome(BadRequest, db)
    ensures Truthy(body.email) && body.email.value in db.users ==> out == Outcome(BadRequest, db)
    ensures out.status == Ok <==>
      Truthy(body.email) && Truthy(body.password) && body.email.value !in db.users
    ensures out.status != Ok ==> out.status == BadRequest && out.db == db
    ensures out.status == Ok ==>
      out.db.users == db.users[body.email.value := NewUser(body, hash)]
      && out.db.(users := db.users) == db
  {
    if !Truthy(body.email) || !Truthy(body.password) then Outcome(BadRequest, db)
    else if body.email.value in db.users then Outcome(BadRequest, db)
    else Outcome(Ok, db.(users := db.users[body.email.value := NewUser(body, hash)]))
  }

  /**
   * A registration adds exactly one account, under a key that was free, and
   * leaves every other account as it was.
   */
  lemma RegisterAddsExactlyOne(body: RegisterBody, db: Db, hash: string -> string)
    requires Register(body, db, hash).status == Ok
    ensures var users := Register(body, db, hash).db.users;
      users.Keys == db.users.Keys + {body.email.value}
      && body.email.value !in db.users
      && |users.Keys| == |db.users.Keys| + 1
      && (forall e :: e in db.users ==> users[e] == db.users[e])
  {
    var users := Register(body, db, hash).db.users;
    assert users.Keys == db.users.Keys + {body.email.value};
  }

  /** The name plays no part in the decision: any name, or none, gets the same answer. */
  lemma NameNotValidated(body: RegisterBody, name: Option<string>, db: Db, hash: string -> string)
    ensures Register(body.(name := name), db, hash).status == Register(body, db, hash).status
  {
  }

  /** If every account is filed under its own e-mail before a registration, so it is after: e-mails stay unique. */
  lemma RegisterKeepsUsersKeyedByEmail(body: RegisterBody, db: Db, hash: string -> string)
    requires UsersKeyedByEmail(db.users)
    ensures UsersKeyedByEmail(Register(body, db, hash).db.users)
  {
  }

  /** Registering the same e-mail twice: the second attempt is refused and changes nothing. */
  lemma SecondRegistrationRefused(body: RegisterBody, other: RegisterBody, db: Db, hash: string -> string)
    requires Register(body, db, hash).status == Ok
    requires other.email == body.email
    ensures var after := Register(body, db, hash).db;
      Register(other, after, hash) == Outcome(BadRequest, after)
  {
  }
}

=== FILE: schedules_api.dfy ===
/**
 * The schedules endpoint: `POST` creates one timetable entry (administrators
 * only) together with its student enrolments, `GET` lists the entries that
 * match the query parameters.
 */
module SchedulesApi {
  import opened Js
  import opened Store
  import opened Selection

  /**
   * The request body of `POST`. `dayOfWeek` tells an absent key from `null`
   * because the handler tests `=== undefined` and the store refuses `null`.
   */
  datatype ScheduleBody = ScheduleBody(
    teacherId: Option<string>,
    subjectId: Option<string>,
    yearGroupId: Option<string>,
    dayOfWeek: Field<int>,
    startTime: Option<string>,
    endTime: Option<string>,
    studentIds: Option<seq<string>>)

  /**
   * The handler's presence check: truthy teacher, subject and times, and a
   * `dayOfWeek` key, whatever its value (so `0` passes).
   */
  predicate Complete(b: ScheduleBody) {
    Truthy(b.teacherId) && Truthy(b.subjectId) && !b.dayOfWeek.Undefined?
    && Truthy(b.startTime) && Truthy(b.endTime)
  }

  /** One enrolment per listed student, in the order given; none for an absent or empty list. */
  function LinksFor(scheduleId: string, studentIds: Option<seq<string>>): (links: seq<StudentLink>)
    ensures forall i :: 0 <= i < |links| ==> links[i].scheduleId == scheduleId
  {
    if NonEmpty(studentIds) then
      seq(|studentIds.value|, i requires 0 <= i < |studentIds.value| => StudentLink(scheduleId, studentIds.value[i]))
    else []
  }

  /** The students a list of enrolments names, in order. */
  function StudentsOf(links: seq<StudentLink>): (ids: seq<string>)
    ensures |ids| == |links|
  {
    seq(|links|, i requires 0 <= i < |links| => links[i].studentId)
  }

  /** The enrolments created for a list of students name exactly those students; an absent or empty list enrols nobody. */
  lemma LinksEnrolStudents(scheduleId: string, studentIds: Option<seq<string>>)
    ensures NonEmpty(studentIds) ==> StudentsOf(LinksFor(scheduleId, studentIds)) == studentIds.value
    ensures !NonEmpty(studentIds) ==> LinksFor(scheduleId, studentIds) == []
  {
  }

  /** `POST /api/schedules`. `newId` is the identifier the store assigns to the new row. */
  function CreateSchedule(session: Option<Session>, body: ScheduleBody, db: Db, newId: string): (out: Outcome)
    ensures !IsAdmin(session) ==> out == Outcome(Unauthorized, db)
    ensures IsAdmin(session) && !Complete(body) ==> out == Outcome(BadRequest, db)
    ensures IsAdmin(session) && Complete(body) && body.dayOfWeek.Null? ==> out == Outcome(ServerError, db)
    ensures out.status == Created <==> IsAdmin(session) && Complete(body) && body.dayOfWeek.Given?
    ensures out.status == Created ==>
      |out.db.schedules| == |db.schedules| + 1
      && out.db.schedules[..|db.schedules|] == db.schedules
      && out.db.schedules[|db.schedules|] == ScheduleRow(
           newId, body.teacherId.value, body.subjectId.value,
           if Truthy(body.yearGroupId) then body.yearGroupId else None,
           body.dayOfWeek.value, body.startTime.value, body.endTime.value)
      && out.db.studentLinks == db.studentLinks + LinksFor(newId, body.studentIds)
      && out.db.(schedules := db.schedules, studentLinks := db.studentLinks) == db
  {
    if !IsAdmin(session) then Outcome(Unauthorized, db)
    else if !Complete(body) then Outcome(BadRequest, db)
    else if body.dayOfWeek.Null? then Outcome(ServerError, db)
    else
      var row := ScheduleRow(
        newId, body.teacherId.value, body.subjectId.value,
        if Truthy(body.yearGroupId) then body.yearGroupId else None,
        body.dayOfWeek.value, body.startTime.value, body.endTime.value);
      Outcome(Created, db.(schedules := db.schedules + [row],
                           studentLinks := db.studentLinks + LinksFor(newId, body.studentIds)))
  }

  /** A request that is not answered 201 leaves the store exactly as it was. */
  lemma RejectedCreateChangesNothing(session: Option<Session>, body: ScheduleBody, db: Db, newId: string)
    ensures CreateSchedule(session, body, db, newId).status != Created ==> CreateSchedule(session, body, db, newId).db == db
  {
  }

  /**
   * The role check comes first: a caller who is not an administrator gets
   * 401 whatever the body holds, so an incomplete body never earns a 400.
   */
  lemma GuardBeforeValidation(session: Option<Session>, b1: ScheduleBody, b2: ScheduleBody, db: Db, newId: string)
    requires !IsAdmin(session)
    ensures CreateSchedule(session, b1, db, newId) == CreateSchedule(session, b2, db, newId)
    ensures CreateSchedule(session, b1, db, newId).status == Unauthorized
  {
  }

  /**
   * The day and the times are stored as given: day 0, a day outside 0..4
   * and an end before the start are all accepted.
   */
  lemma NoRangeChecks(session: Option<Session>, body: ScheduleBody, db: Db, newId: string)
    requires IsAdmin(session) && Complete(body) && body.dayOfWeek.Given?
    ensures CreateSchedule(session, body, db, newId).status == Created
    ensures CreateSchedule(session, body.(dayOfWeek := Given(0)), db, newId).status == Created
    ensures CreateSchedule(session, body.(dayOfWeek := Given(7)), db, newId).status == Created
    ensures CreateSchedule(session, body.(startTime := Some("16:00"), endTime := Some("08:00")), db, newId).status == Created
  {
  }

  /** The query of `GET`: a key per condition, `None` when the condition is absent. */
  datatype ScheduleWhere = ScheduleWhere(
    teacherId: Option<string>,
    yearGroupId: Option<string>,
    dayOfWeek: Option<Option<int>>)   // Some(None): parseInt gave NaN

  /** Builds the query from the three search parameters (`None`: parameter absent). */
  function WhereOf(teacherId: Option<string>, yearGroupId: Option<string>, dayOfWeek: Option<string>): (w: ScheduleWhere)
    ensures w.teacherId.Some? <==> Truthy(teacherId)
    ensures w.yearGroupId.Some? <==> Truthy(yearGroupId)
    ensures w.dayOfWeek.Some? <==> Truthy(dayOfWeek)
  {
    ScheduleWhere(
      if Truthy(teacherId) then teacherId else None,
      if Truthy(yearGroupId) then yearGroupId else None,
      if Truthy(dayOfWeek) then Some(ParseInt(dayOfWeek.value)) else None)
  }

  /** Whether a row meets every condition of the query. */
  function Matches(w: ScheduleWhere): ScheduleRow -> bool {
    (r: ScheduleRow) =>
      (w.teacherId.Some? ==> r.teacherId == w.teacherId.value)
      && (w.yearGroupId.Some? ==> r.yearGroupId == w.yearGroupId)
      && (w.dayOfWeek.Some? ==> w.dayOfWeek.value == Some(r.dayOfWeek))
  }

  /**
   * `GET /api/schedules`. A `dayOfWeek` that does not parse as an integer
   * makes the store refuse the query, answered with 500.
   */
  function ListSchedules(teacherId: Option<string>, yearGroupId: Option<string>, dayOfWeek: Option<string>, db: Db): (l: Listing<ScheduleRow>)
    ensures l.status == ServerError <==> Truthy(dayOfWeek) && ParseInt(dayOfWeek.value).None?
    ensures l.status != ServerError ==> l.status == Ok
    ensures l.status == Ok ==> forall r :: r in l.rows <==>
      r in db.schedules
      && (Truthy(teacherId) ==> r.teacherId == teacherId.value)
      && (Truthy(yearGroupId) ==> r.yearGroupId == yearGroupId)
      && (Truthy(dayOfWeek) ==> ParseInt(dayOfWeek.value) == Some(r.dayOfWeek))
    ensures l.status == ServerError ==> l.rows == []
  {
    var w := WhereOf(teacherId, yearGroupId, dayOfWeek);
    if w.dayOfWeek == Some(None) then Listing(ServerError, [])
    else Listing(Ok, Filter(db.schedules, Matches(w)))
  }

  /** Absent and empty parameters add no condition: every row is listed, in store order. */
  lemma NoParamsListsAll(teacherId: Option<string>, yearGroupId: Option<string>, dayOfWeek: Option<string>, db: Db)
    requires !Truthy(teacherId) && !Truthy(yearGroupId) && !Truthy(dayOfWeek)
    ensures ListSchedules(teacherId, yearGroupId, dayOfWeek, db) == Listing(Ok, db.schedules)
  {
    FilterAll(db.schedules, Matches(WhereOf(teacherId, yearGroupId, dayOfWeek)));
  }

  /** A day written as `String(d)` lists exactly the rows on day `d`. */
  lemma DayParamSelectsDay(d: int, db: Db)
    ensures ListSchedules(None, None, Some(IntToString(d)), db).status == Ok
    ensures forall r :: r in ListSchedules(None, None, Some(IntToString(d)), db).rows <==> r in db.schedules && r.dayOfWeek == d
  {
    ParseIntOfIntToString(d);
  }

  /** A `dayOfWeek` text that `parseInt` reads as `d` lists exactly the rows on day `d`. */
  lemma {:induction false} DayParamParsedAs(text: string, d: int, db: Db)
    requires text != "" && ParseInt(text) == Some(d)
    ensures ListSchedules(None, None, Some(text), db).status == Ok
    ensures forall r :: r in ListSchedules(None, None, Some(text), db).rows <==> r in db.schedules && r.dayOfWeek == d
  {
    var l := ListSchedules(None, None, Some(text), db);
    assert Truthy(Some(text));
    assert l.status == Ok;
    forall r
      ensures r in l.rows <==> r in db.schedules && r.dayOfWeek == d
    {
      assert ParseInt(text) == Some(r.dayOfWeek) <==> r.dayOfWeek == d;
    }
  }

  /** `parseInt` reads a `0x` prefix as base 16: `?dayOfWeek=0x1` lists exactly the day-1 rows. */
  lemma HexDayParamSelectsDay(db: Db)
    ensures ListSchedules(None, None, Some("0x1"), db).status == Ok
    ensures forall r :: r in ListSchedules(None, None, Some("0x1"), db).rows <==> r in db.schedules && r.dayOfWeek == 1
  {
    ParseIntHexExamples();
    DayParamParsedAs("0x1", 1, db);
  }

  /** `?dayOfWeek=0x` is `NaN` to `parseInt`, so the query is refused with 500. */
  lemma HexPrefixAloneRefused(db: Db)
    ensures ListSchedules(None, None, Some("0x"), db) == Listing(ServerError, [])
  {
    ParseIntBareHexPrefix();
    assert Truthy(Some("0x")) && ParseInt("0x").None?;
  }

  /** A created entry is listed when its teacher's entries are asked for. */
  lemma CreatedIsListed(session: Option<Session>, body: ScheduleBody, db: Db, newId: string)
    requires CreateSchedule(session, body, db, newId).status == Created
    ensures CreateSchedule(session, body, db, newId).db.schedules[|db.schedules|]
              in ListSchedules(body.teacherId, None, None, CreateSchedule(session, body, db, newId).db).rows
  {
  }
}

=== FILE: selection.dfy ===
/**
 * What the calendar shows: the teacher filter of the sidebar, the checkbox
 * toggle that edits it, and the split of the shown entries into the five
 * day columns.
 */
module Selection {
  import opened Types

  /** `xs.filter(p)`: the elements satisfying `p`, in their original order. */
  function Filter<T(!new)>(xs: seq<T>, p: T -> bool): (r: seq<T>)
    ensures |r| <= |xs|
    ensures forall x :: x in r <==> x in xs && p(x)
  {
    if |xs| == 0 then []
    else if p(xs[|xs| - 1]) then Filter(xs[..|xs| - 1], p) + [xs[|xs| - 1]]
    else Filter(xs[..|xs| - 1], p)
  }

  /** Filtering keeps the order: it distributes over concatenation. */
  lemma {:induction false} FilterAppend<T(!new)>(xs: seq<T>, ys: seq<T>, p: T -> bool)
    ensures Filter(xs + ys, p) == Filter(xs, p) + Filter(ys, p)
  {
    if |ys| == 0 {
      assert xs + ys == xs;
    } else {
      var last := ys[|ys| - 1];
      assert (xs + ys)[..|xs + ys| - 1] == xs + ys[..|ys| - 1];
      FilterAppend(xs, ys[..|ys| - 1], p);
    }
  }

  /** A filter every element passes keeps the whole sequence. */
  lemma {:induction false} FilterAll<T(!new)>(xs: seq<T>, p: T -> bool)
    requires forall i :: 0 <= i < |xs| ==> p(xs[i])
    ensures Filter(xs, p) == xs
  {
    if |xs| > 0 {
      FilterAll(xs[..|xs| - 1], p);
      assert xs[..|xs| - 1] + [xs[|xs| - 1]] == xs;
    }
  }

  /** The number of elements satisfying `p`. */
  function Count<T>(xs: seq<T>, p: T -> bool): nat {
    if |xs| == 0 then 0
    else Count(xs[..|xs| - 1], p) + (if p(xs[|xs| - 1]) then 1 else 0)
  }

  /** A filter keeps exactly as many elements as satisfy it. */
  lemma {:induction false} FilterCount<T(!new)>(xs: seq<T>, p: T -> bool)
    ensures |Filter(xs, p)| == Count(xs, p)
  {
    if |xs| > 0 {
      FilterCount(xs[..|xs| - 1], p);
    }
  }

  /** Whether the teacher filter lets an entry through. */
  predicate Selected(selected: set<string>, s: Schedule) {
    s.teacherId in selected
  }

  /**
   * `filteredSchedules`: with no teacher selected every entry is shown;
   * otherwise exactly the entries of the selected teachers, in order.
   */
  function FilteredSchedules(schedules: seq<Schedule>, selected: set<string>): (shown: seq<Schedule>)
    ensures |selected| == 0 ==> shown == schedules
    ensures |selected| > 0 ==> forall s :: s in shown <==> s in schedules && s.teacherId in selected
  {
    if |selected| == 0 then schedules
    else Filter(schedules, (s: Schedule) => Selected(selected, s))
  }

  /** Selecting more teachers never hides an entry, as long as one was selected. */
  lemma FilterMonotone(schedules: seq<Schedule>, selected: set<string>, more: set<string>)
    requires |selected| > 0 && selected <= more
    ensures forall s :: s in FilteredSchedules(schedules, selected) ==> s in FilteredSchedules(schedules, more)
  {
  }

  /** Selecting every teacher that appears shows the same entries as selecting none. */
  lemma SelectAllShowsAll(schedules: seq<Schedule>, selected: set<string>)
    requires |selected| > 0
    requires forall i :: 0 <= i < |schedules| ==> schedules[i].teacherId in selected
    ensures FilteredSchedules(schedules, selected) == FilteredSchedules(schedules, {})
  {
    FilterAll(schedules, (s: Schedule) => Selected(selected, s));
  }

  /** `toggleTeacher`: remove the id if selected, add it otherwise. */
  function Toggle(selected: set<string>, id: string): (next: set<string>)
    ensures id in next <==> id !in selected
    ensures forall x :: x != id ==> (x in next <==> x in selected)
  {
    if id in selected then selected - {id} else selected + {id}
  }

  /** Toggling the same teacher twice restores the selection. */
  lemma ToggleTwice(selected: set<string>, id: string)
    ensures Toggle(Toggle(selected, id), id) == selected
  {
  }

  /**
   * The sidebar checkbox of a teacher: ticked while nobody is selected (all
   * entries are shown) or when that teacher is selected.
   */
  predicate Checked(selected: set<string>, id: string) {
    |selected| == 0 || id in selected
  }

  /**
   * A ticked box means the teacher's entries are shown and an unticked one
   * that they are hidden; the toggle unticks a box that was ticked only
   * because the selection was empty by selecting only that teacher.
   */
  lemma CheckedMatchesShown(schedules: seq<Schedule>, selected: set<string>, s: Schedule)
    requires s in schedules
    ensures Checked(selected, s.teacherId) <==> s in FilteredSchedules(schedules, selected)
    ensures |selected| == 0 ==> Toggle(selected, s.teacherId) == {s.teacherId}
  {
  }

  /** Whether an entry belongs to the day column `day`. */
  function OnDay(day: int): Schedule -> bool {
    (s: Schedule) => s.dayOfWeek == day
  }

  /** Whether an entry's day lies in `0..n-1`. */
  function DayBelow(n: int): Schedule -> bool {
    (s: Schedule) => 0 <= s.dayOfWeek < n
  }

  /** The entries of the day column `day`: `filteredSchedules.filter(s => s.dayOfWeek === day)`. */
  function DayColumn(shown: seq<Schedule>, day: int): (col: seq<Schedule>)
    ensures forall s :: s in col <==> s in shown && s.dayOfWeek == day
  {
    Filter(shown, OnDay(day))
  }

  /** The columns of the first `n` days. */
  function Columns(shown: seq<Schedule>, n: nat): (cols: seq<seq<Schedule>>)
    ensures |cols| == n
  {
    if n == 0 then [] else Columns(shown, n - 1) + [DayColumn(shown, n - 1)]
  }

  /** Column `i` of the first `n` is the column of day `i`. */
  lemma {:induction false} ColumnAt(shown: seq<Schedule>, n: nat, i: nat)
    requires i < n
    ensures Columns(shown, n)[i] == DayColumn(shown, i)
  {
    if i < n - 1 {
      ColumnAt(shown, n - 1, i);
    }
  }

  /** The five day columns, Monday (`dayOfWeek` 0) through Friday (4). */
  function WeekColumns(shown: seq<Schedule>): (cols: seq<seq<Schedule>>)
    ensures |cols| == 5
    ensures forall i :: 0 <= i < 5 ==> cols[i] == DayColumn(shown, i)
  {
    var cols := Columns(shown, 5);
    ColumnAt(shown, 5, 0);
    ColumnAt(shown, 5, 1);
    ColumnAt(shown, 5, 2);
    ColumnAt(shown, 5, 3);
    ColumnAt(shown, 5, 4);
    cols
  }

  /** Whether an entry has a column on the calendar. */
  predicate OnCalendar(s: Schedule) {
    0 <= s.dayOfWeek < 5
  }

  /**
   * Each shown entry with `dayOfWeek` 0..4 sits in exactly its own column;
   * an entry with any other `dayOfWeek` sits in none.
   */
  lemma ColumnsPartition(shown: seq<Schedule>, s: Schedule)
    requires s in shown
    ensures forall i :: 0 <= i < 5 ==> (s in WeekColumns(shown)[i] <==> s.dayOfWeek == i)
    ensures !OnCalendar(s) ==> forall i :: 0 <= i < 5 ==> s !in WeekColumns(shown)[i]
  {
  }

  /** The total size of a list of columns. */
  function TotalSize(cols: seq<seq<Schedule>>): nat {
    if |cols| == 0 then 0 else TotalSize(cols[..|cols| - 1]) + |cols[|cols| - 1]|
  }

  /** A predicate nothing satisfies counts nothing. */
  lemma {:induction false} CountNone<T>(xs: seq<T>, p: T -> bool)
    requires forall x :: !p(x)
    ensures Count(xs, p) == 0
  {
    if |xs| > 0 {
      CountNone(xs[..|xs| - 1], p);
    }
  }

  /** Entries below day `n + 1` are those below `n` and those on day `n`. */
  lemma {:induction false} CountSplit(shown: seq<Schedule>, n: nat)
    ensures Count(shown, DayBelow(n + 1)) == Count(shown, DayBelow(n)) + Count(shown, OnDay(n))
  {
    if |shown| > 0 {
      CountSplit(shown[..|shown| - 1], n);
    }
  }

  /** The first `n` columns hold as many entries as have a day below `n`. */
  lemma {:induction false} ColumnsCount(shown: seq<Schedule>, n: nat)
    ensures TotalSize(Columns(shown, n)) == Count(shown, DayBelow(n))
  {
    if n == 0 {
      CountNone(shown, DayBelow(0));
    } else {
      ColumnsCount(shown, n - 1);
      var cols := Columns(shown, n);
      assert cols[..|cols| - 1] == Columns(shown, n - 1);
      FilterCount(shown, OnDay(n - 1));
      CountSplit(shown, n - 1);
    }
  }

  /** Two predicates that agree everywhere count the same. */
  lemma {:induction false} CountSame<T>(xs: seq<T>, p: T -> bool, q: T -> bool)
    requires forall x :: p(x) == q(x)
    ensures Count(xs, p) == Count(xs, q)
  {
    if |xs| > 0 {
      CountSame(xs[..|xs| - 1], p, q);
    }
  }

  /**
   * The five columns together hold exactly as many entries as are shown with
   * `dayOfWeek` 0..4: no entry is drawn twice, and only the others are lost.
   */
  lemma ColumnsCoverCalendar(shown: seq<Schedule>)
    ensures TotalSize(WeekColumns(shown)) == Count(shown, OnCalendar)
  {
    ColumnsCount(shown, 5);
    CountSame(shown, DayBelow(5), OnCalendar);
  }
}

=== FILE: store.dfy ===
/**
 * What the route handlers see of the outside world: the caller's session,
 * request-body fields as JSON delivers them, and the relational store as an
 * immutable value. The store keeps each table as a sequence in insertion
 * order; users are keyed by e-mail, as the user table's unique key.
 */
module Store {
  import opened Js
  import opened Types

  /** The session next-auth hands over: the signed-in user's e-mail and role. */
  datatype Session = Session(email: Option<string>, role: string)

  /** `session && session.user.role === 'ADMIN'`: a signed-in administrator. */
  predicate IsAdmin(session: Option<Session>) {
    session.Some? && session.value.role == "ADMIN"
  }

  /** A request-body field that tells `undefined` (key absent) from `null`. */
  datatype Field<T> = Undefined | Null | Given(value: T)

  /** HTTP status codes the handlers answer with. */
  const Ok: int := 200
  const Created: int := 201
  const BadRequest: int := 400
  const Unauthorized: int := 401
  const NotFound: int := 404
  const ServerError: int := 500

  datatype ScheduleRow = ScheduleRow(
    id: string,
    teacherId: string,
    subjectId: string,
    yearGroupId: Option<string>,
    dayOfWeek: int,
    startTime: string,
    endTime: string)

  /** A student's enrolment in a schedule entry. */
  datatype StudentLink = StudentLink(scheduleId: string, studentId: string)

  datatype SubjectRow = SubjectRow(id: string, name: string, color: string, kind: SubjectType)

  /** A subject offered to a year group; the same pair may be linked twice. */
  datatype YearSubject = YearSubject(yearGroupId: string, subjectId: string)

  datatype TeacherRow = TeacherRow(id: string, name: string, email: string, color: string)

  datatype YearGroupRow = YearGroupRow(id: string, name: string)

  /** A login account; `password` holds the hash, never the plaintext. */
  datatype User = User(email: string, name: Option<string>, password: string)

  datatype Db = Db(
    schedules: seq<ScheduleRow>,
    studentLinks: seq<StudentLink>,
    subjects: seq<SubjectRow>,
    yearSubjects: seq<YearSubject>,
    teachers: seq<TeacherRow>,
    yearGroups: seq<YearGroupRow>,
    users: map<string, User>)

  /** What a handler answers and the store it leaves behind. */
  datatype Outcome = Outcome(status: int, db: Db)

  /** What a listing handler answers: a status and the rows listed. */
  datatype Listing<T> = Listing(status: int, rows: seq<T>)

  /** Every user is filed under its own e-mail, so e-mails are unique. */
  predicate UsersKeyedByEmail(users: map<string, User>) {
    forall e :: e in users ==> users[e].email == e
  }

  /** No two teachers share an e-mail. */
  predicate TeacherEmailsUnique(teachers: seq<TeacherRow>) {
    forall i, j :: 0 <= i < j < |teachers| ==> teachers[i].email != teachers[j].email
  }

  /** Whether some teacher already has this e-mail. */
  predicate TeacherEmailTaken(teachers: seq<TeacherRow>, email: string) {
    exists i :: 0 <= i < |teachers| && teachers[i].email == email
  }
}

=== FILE: subjects_api.dfy ===
/**
 * The subjects endpoint: `POST` creates a subject (administrators only) and
 * links it to the year groups that take it, `GET` lists subjects by kind and
 * by year group.
 */
module SubjectsApi {
  import opened Js
  import opened Types
  import opened Store
  import opened Selection

  /** The colour a subject gets when none is given. */
  const DefaultSubjectColor: string := "#60a5fa"

  /** The request body of `POST`; `kind` is the wire field `type`. */
  datatype SubjectBody = SubjectBody(
    name: Option<string>,
    color: Option<string>,
    kind: Option<string>,
    yearGroupIds: Option<seq<string>>)

  /**
   * The kind stored for `type || 'MAIN'`: a falsy type becomes `Main`; a
   * spelling that names no kind is refused by the store (`None`).
   */
  function KindOf(kind: Option<string>): (k: Option<SubjectType>)
    ensures !Truthy(kind) ==> k == Some(Main)
    ensures Truthy(kind) ==> (k.Some? <==> kind.value in {"MAIN", "INTERVENTION", "BOOSTER"})
    ensures Truthy(kind) && k.Some? ==> SubjectTypeName(k.value) == kind.value
  {
    if Truthy(kind) then ParseSubjectType(kind.value) else Some(Main)
  }

  /** `color || '#60a5fa'`: a truthy colour is kept, any other gives the default. */
  function ColorOf(color: Option<string>): (c: string)
    ensures Truthy(color) ==> c == color.value
    ensures !Truthy(color) ==> c == DefaultSubjectColor
  {
    if Truthy(color) then color.value else DefaultSubjectColor
  }

  /** One year-group link per listed id, in order; none for an absent or empty list. */
  function YearLinksFor(subjectId: string, yearGroupIds: Option<seq<string>>): (links: seq<YearSubject>)
    ensures forall i :: 0 <= i < |links| ==> links[i].subjectId == subjectId
  {
    if NonEmpty(yearGroupIds) then
      seq(|yearGroupIds.value|, i requires 0 <= i < |yearGroupIds.value| => YearSubject(yearGroupIds.value[i], subjectId))
    else []
  }

  /** The year groups a list of links names, in order. */
  function YearGroupsOf(links: seq<YearSubject>): (ids: seq<string>)
    ensures |ids| == |links|
  {
    seq(|links|, i requires 0 <= i < |links| => links[i].yearGroupId)
  }

  /** The links created for a list of year groups name exactly those year groups; an absent or empty list links none. */
  lemma YearLinksNameYearGroups(subjectId: string, yearGroupIds: Option<seq<string>>)
    ensures NonEmpty(yearGroupIds) ==> YearGroupsOf(YearLinksFor(subjectId, yearGroupIds)) == yearGroupIds.value
    ensures !NonEmpty(yearGroupIds) ==> YearLinksFor(subjectId, yearGroupIds) == []
  {
  }

  /** `POST /api/subjects`. `newId` is the identifier the store assigns. */
  function CreateSubject(session: Option<Session>, body: SubjectBody, db: Db, newId: string): (out: Outcome)
    ensures !IsAdmin(session) ==> out == Outcome(Unauthorized, db)
    ensures IsAdmin(session) && !Truthy(body.name) ==> out == Outcome(BadRequest, db)
    ensures IsAdmin(session) && Truthy(body.name) && KindOf(body.kind).None? ==> out == Outcome(ServerError, db)
    ensures out.status == Created <==> IsAdmin(session) && Truthy(body.name) && KindOf(body.kind).Some?
    ensures out.status == Created ==>
      out.db.subjects == db.subjects + [SubjectRow(newId, body.name.value, ColorOf(body.color), KindOf(body.kind).value)]
      && out.db.yearSubjects == db.yearSubjects + YearLinksFor(newId, body.yearGroupIds)
      && out.db.(subjects := db.subjects, yearSubjects := db.yearSubjects) == db
  {
    if !IsAdmin(session) then Outcome(Unauthorized, db)
    else if !Truthy(body.name) then Outcome(BadRequest, db)
    else
      match KindOf(body.kind)
      case None => Outcome(ServerError, db)
      case Some(k) =>
        var row := SubjectRow(newId, body.name.value, ColorOf(body.color), k);
        Outcome(Created, db.(subjects := db.subjects + [row],
                             yearSubjects := db.yearSubjects + YearLinksFor(newId, body.yearGroupIds)))
  }

  /** With colour and type left out, a named subject is a blue `MAIN` subject with no year groups. */
  lemma DefaultsApplied(session: Option<Session>, name: string, db: Db, newId: string)
    requires IsAdmin(session) && name != ""
    ensures CreateSubject(session, SubjectBody(Some(name), None, None, None), db, newId).db.subjects[|db.subjects|]
              == SubjectRow(newId, name, "#60a5fa", Main)
    ensures CreateSubject(session, SubjectBody(Some(name), Some(""), Some(""), Some([])), db, newId).db.yearSubjects
              == db.yearSubjects
  {
  }

  /** The query of `GET`: an optional kind and an optional year group. */
  datatype SubjectWhere = SubjectWhere(kind: Option<string>, yearGroupId: Option<string>)

  /** Whether a subject meets the query: of that kind, and linked at least once to that year group. */
  function SubjectMatches(w: SubjectWhere, yearSubjects: seq<YearSubject>): SubjectRow -> bool {
    (s: SubjectRow) =>
      (w.kind.Some? ==> Some(s.kind) == ParseSubjectType(w.kind.value))
      && (w.yearGroupId.Some? ==> YearSubject(w.yearGroupId.value, s.id) in yearSubjects)
  }

  /**
   * `GET /api/subjects`. A `type` that names no kind makes the store refuse
   * the query, answered with 500.
   */
  function ListSubjects(kind: Option<string>, yearGroupId: Option<string>, db: Db): (l: Listing<SubjectRow>)
    ensures l.status == ServerError <==> Truthy(kind) && ParseSubjectType(kind.value).None?
    ensures l.status != ServerError ==> l.status == Ok
    ensures l.status == Ok ==> forall s :: s in l.rows <==>
      s in db.subjects
      && (Truthy(kind) ==> SubjectTypeName(s.kind) == kind.value)
      && (Truthy(yearGroupId) ==> exists i :: 0 <= i < |db.yearSubjects| && db.yearSubjects[i] == YearSubject(yearGroupId.value, s.id))
    ensures l.status == ServerError ==> l.rows == []
  {
    var w := SubjectWhere(if Truthy(kind) then kind else None, if Truthy(yearGroupId) then yearGroupId else None);
    if w.kind.Some? && ParseSubjectType(w.kind.value).None? then Listing(ServerError, [])
    else Listing(Ok, Filter(db.subjects, SubjectMatches(w, db.yearSubjects)))
  }

  /** A subject created for a year group is listed under that year group. */
  lemma CreatedListedUnderYearGroup(session: Option<Session>, body: SubjectBody, db: Db, newId: string, i: nat)
    requires CreateSubject(session, body, db, newId).status == Created
    requires NonEmpty(body.yearGroupIds) && i < |body.yearGroupIds.value| && body.yearGroupIds.value[i] != ""
    ensures CreateSubject(session, body, db, newId).db.subjects[|db.subjects|]
              in ListSubjects(None, Some(body.yearGroupIds.value[i]), CreateSubject(session, body, db, newId).db).rows
  {
    var after := CreateSubject(session, body, db, newId).db;
    var links := YearLinksFor(newId, body.yearGroupIds);
    assert after.yearSubjects[|db.yearSubjects| + i] == links[i];
  }
}

=== FILE: teachers_api.dfy ===
/**
 * `POST /api/teachers`: an administrator adds a teacher with a name, an
 * e-mail and a display colour. The store keeps teacher e-mails unique.
 */
module TeachersApi {
  import opened Js
  import opened Store

  /** The colour a teacher gets when none is given. */
  const DefaultTeacherColor: string := "#6366f1"

  /**
   * The request body. `extra` stands for every other key the client may
   * send; the handler destructures only the first three.
   */
  datatype TeacherBody = TeacherBody(
    name: Option<string>,
    email: Option<string>,
    color: Option<string>,
    extra: map<string, string>)

  /** `POST /api/teachers`. A taken e-mail makes the store refuse the row, answered with 500. */
  function CreateTeacher(session: Option<Session>, body: TeacherBody, db: Db, newId: string): (out: Outcome)
    ensures !IsAdmin(session) ==> out == Outcome(Unauthorized, db)
    ensures IsAdmin(session) && !(Truthy(body.name) && Truthy(body.email)) ==> out == Outcome(BadRequest, db)
    ensures IsAdmin(session) && Truthy(body.name) && Truthy(body.email) ==>
      (TeacherEmailTaken(db.teachers, body.email.value) ==> out == Outcome(ServerError, db))
    ensures out.status == Created <==>
      IsAdmin(session) && Truthy(body.name) && Truthy(body.email) && !TeacherEmailTaken(db.teachers, body.email.value)
    ensures out.status == Created ==>
      out.db.teachers == db.teachers + [TeacherRow(newId, body.name.value, body.email.value,
                                                   if Truthy(body.color) then body.color.value else DefaultTeacherColor)]
      && out.db.(teachers := db.teachers) == db
  {
    if !IsAdmin(session) then Outcome(Unauthorized, db)
    else if !Truthy(body.name) || !Truthy(body.email) then Outcome(BadRequest, db)
    else if TeacherEmailTaken(db.teachers, body.email.value) then Outcome(ServerError, db)
    else
      var color := if Truthy(body.color) then body.color.value else DefaultTeacherColor;
      Outcome(Created, db.(teachers := db.teachers + [TeacherRow(newId, body.name.value, body.email.value, color)]))
  }

  /** Keys other than `name`, `email` and `color` change nothing about the answer or the store. */
  lemma OtherFieldsIgnored(session: Option<Session>, body: TeacherBody, extra: map<string, string>, db: Db, newId: string)
    ensures CreateTeacher(session, body.(extra := extra), db, newId) == CreateTeacher(session, body, db, newId)
  {
  }

  /** Without a colour, or with an empty one, the teacher is drawn in the default indigo. */
  lemma DefaultColor(session: Option<Session>, body: TeacherBody, db: Db, newId: string)
    requires !Truthy(body.color)
    requires CreateTeacher(session, body, db, newId).status == Created
    ensures CreateTeacher(session, body, db, newId).db.teachers[|db.teachers|].color == "#6366f1"
  {
  }

  /** Whatever the request, a store whose teacher e-mails are unique keeps them unique. */
  lemma {:induction false} CreatePreservesUniqueEmails(session: Option<Session>, body: TeacherBody, db: Db, newId: string)
    requires TeacherEmailsUnique(db.teachers)
    ensures TeacherEmailsUnique(CreateTeacher(session, body, db, newId).db.teachers)
  {
    var out := CreateTeacher(session, body, db, newId);
    if out.status == Created {
      var ts := out.db.teachers;
      forall i, j | 0 <= i < j < |ts|
        ensures ts[i].email != ts[j].email
      {
        if j == |db.teachers| {
          assert ts[i] == db.teachers[i];
          assert !TeacherEmailTaken(db.teachers, body.email.value);
        } else {
          assert ts[i] == db.teachers[i] && ts[j] == db.teachers[j];
        }
      }
    }
  }
}

=== FILE: types.dfy ===
/**
 * Record shapes and constants shared by the calendar page and the API
 * handlers: the subject kinds, the client-side schedule record and its form
 * payload, the day labels, the school-day and lunch-break times and the
 * colour palettes.
 */
module Types {
  import opened Js

  /** The three subject kinds; a subject's `type` is always one of them. */
  datatype SubjectType = Main | Intervention | Booster

  /** The wire spelling of a subject kind. */
  function SubjectTypeName(k: SubjectType): string {
    match k
    case Main => "MAIN"
    case Intervention => "INTERVENTION"
    case Booster => "BOOSTER"
  }

  /** Reads a wire spelling back; any other string names no subject kind. */
  function ParseSubjectType(s: string): (k: Option<SubjectType>)
    ensures k.Some? ==> SubjectTypeName(k.value) == s
    ensures k.None? ==> forall t: SubjectType :: SubjectTypeName(t) != s
  {
    if s == "MAIN" then Some(Main)
    else if s == "INTERVENTION" then Some(Intervention)
    else if s == "BOOSTER" then Some(Booster)
    else None
  }

  /** Exactly the three spellings `MAIN`, `INTERVENTION` and `BOOSTER` name a kind, and each reads back to its kind. */
  lemma SubjectTypeSpellings(s: string, k: SubjectType)
    ensures ParseSubjectType(SubjectTypeName(k)) == Some(k)
    ensures ParseSubjectType(s).Some? <==> s in {"MAIN", "INTERVENTION", "BOOSTER"}
  {
  }

  /** A schedule entry as the calendar page receives it (relation objects left out). */
  datatype Schedule = Schedule(
    id: string,
    teacherId: string,
    subjectId: string,
    yearGroupId: string,
    dayOfWeek: int,
    startTime: string,
    endTime: string,
    createdAt: string)

  /** The payload of the schedule form: the scalar fields of a schedule minus `id` and `createdAt`. */
  datatype ScheduleFormData = ScheduleFormData(
    teacherId: string,
    subjectId: string,
    yearGroupId: string,
    dayOfWeek: int,
    startTime: string,
    endTime: string)

  function FormDataOf(s: Schedule): ScheduleFormData {
    ScheduleFormData(s.teacherId, s.subjectId, s.yearGroupId, s.dayOfWeek, s.startTime, s.endTime)
  }

  function WithIdentity(f: ScheduleFormData, id: string, createdAt: string): Schedule {
    Schedule(id, f.teacherId, f.subjectId, f.yearGroupId, f.dayOfWeek, f.startTime, f.endTime, createdAt)
  }

  /**
   * The form payload and the identity fields together carry exactly a
   * schedule: dropping `id` and `createdAt` loses nothing else, and adding
   * them back adds nothing else.
   */
  lemma FormDataIsScheduleMinusIdentity(s: Schedule, f: ScheduleFormData, id: string, createdAt: string)
    ensures WithIdentity(FormDataOf(s), s.id, s.createdAt) == s
    ensures FormDataOf(WithIdentity(f, id, createdAt)) == f
    ensures WithIdentity(f, id, createdAt).id == id && WithIdentity(f, id, createdAt).createdAt == createdAt
  {
  }

  const DayNames: seq<string> := ["Mon", "Tue", "Wed", "Thu", "Fri"]
  const DayFullNames: seq<string> := ["Monday", "Tuesday", "Wednesday", "Thursday", "Friday"]

  /** Both label lists cover `dayOfWeek` 0..4, and each short label abbreviates the full one. */
  lemma DayLabels()
    ensures |DayNames| == 5 && |DayFullNames| == 5
    ensures forall i :: 0 <= i < 5 ==> |DayFullNames[i]| > 3 && DayFullNames[i][..3] == DayNames[i]
  {
  }

  const SchoolStart: string := "07:30"
  const SchoolEnd: string := "14:15"
  const LunchBreak1Start: string := "11:20"
  const LunchBreak1End: string := "12:15"
  const LunchBreak2Start: string := "12:15"
  const LunchBreak2End: string := "13:15"

  const SubjectColors: seq<string> := [
    "#a78bfa", "#f87171", "#fbbf24", "#fb923c", "#67e8f9",
    "#c4b5fd", "#6ee7b7", "#fdba74", "#bef264", "#94a3b8",
    "#f0abfc", "#86efac", "#fca5a5", "#93c5fd"]

  const TeacherColors: seq<string> := [
    "#f59e0b", "#ef4444", "#8b5cf6", "#10b981", "#3b82f6",
    "#ec4899", "#14b8a6", "#f97316", "#6366f1", "#84cc16"]

  /** A hexadecimal digit as the palettes write it: `0`-`9` or `a`-`f`, never upper case. */
  predicate IsLowerHexDigit(c: char) {
    '0' <= c <= '9' || 'a' <= c <= 'f'
  }

  /** A display colour `#rrggbb` in lower-case hexadecimal. */
  predicate IsHexColor(s: string) {
    |s| == 7 && s[0] == '#' && forall i :: 1 <= i < 7 ==> IsLowerHexDigit(s[i])
  }

  /** Both palettes hold `#rrggbb` colours, 14 for subjects and 10 for teachers. */
  lemma PaletteColors()
    ensures |SubjectColors| == 14 && |TeacherColors| == 10
    ensures forall i :: 0 <= i < |SubjectColors| ==> IsHexColor(SubjectColors[i])
    ensures forall i :: 0 <= i < |TeacherColors| ==> IsHexColor(TeacherColors[i])
  {
  }

  /** No colour appears twice in a palette. */
  lemma PalettesDistinct()
    ensures forall i, j :: 0 <= i < j < |SubjectColors| ==> SubjectColors[i] != SubjectColors[j]
    ensures forall i, j :: 0 <= i < j < |TeacherColors| ==> TeacherColors[i] != TeacherColors[j]
  {
  }

  /**
   * The default a new teacher gets, `#6366f1`, is a palette colour; the
   * default a new subject gets, `#60a5fa`, is not.
   */
  lemma DefaultColorsAndPalettes()
    ensures IsHexColor("#6366f1") && "#6366f1" in TeacherColors
    ensures IsHexColor("#60a5fa") && "#60a5fa" !in SubjectColors
  {
  }
}

=== FILE: week.dfy ===
/**
 * Week resolution and navigation. Dates are whole day numbers: day 0 is
 * 1 January 1970, a Thursday, and `Weekday` numbers the days as
 * `Date.prototype.getDay` does (0 = Sunday … 6 = Saturday). Adding to a day
 * number is `setDate(getDate() + n)`, month and year roll-over included.
 */
module Week {

  /** `getDay()`: 0 for Sunday through 6 for Saturday. Day 0 is a Thursday. */
  function Weekday(d: int): (w: nat)
    ensures w < 7
  {
    (d + 4) % 7
  }

  /** Seven days on, the weekday is the same. */
  lemma WeekdayPeriodic(d: int, k: int)
    ensures Weekday(d + 7 * k) == Weekday(d)
  {
    assert d + 7 * k + 4 == (d + 4) + 7 * k;
  }

  /** Consecutive days have consecutive weekdays, Saturday wrapping to Sunday. */
  lemma WeekdayNext(d: int)
    ensures Weekday(d + 1) == if Weekday(d) == 6 then 0 else Weekday(d) + 1
  {
  }

  /**
   * `getWeekDates`: step back to the Monday of the date's week (a Sunday
   * belongs to the week that ended on it, so it steps back six days) and
   * list that Monday and the four days after it.
   */
  function WeekDates(d: int): (days: seq<int>)
    ensures |days| == 5
    ensures forall i :: 0 <= i < 5 ==> days[i] == days[0] + i && Weekday(days[i]) == i + 1
    ensures days[0] <= d < days[0] + 7
  {
    var day := Weekday(d);
    var diff := if day == 0 then -6 else 1 - day;
    var monday := d + diff;
    assert Weekday(monday) == 1 by {
      assert monday + 4 == (d + 4) + diff;
    }
    seq(5, i requires 0 <= i < 5 => monday + i)
  }

  /**
   * The first listed day is the latest Monday on or before the date: it is
   * a Monday, not after the date, and every Monday on or before the date is
   * on or before it. A Sunday goes back six days, a Saturday five.
   */
  lemma WeekStartIsLatestMonday(d: int, m: int)
    requires Weekday(m) == 1 && m <= d
    ensures m <= WeekDates(d)[0]
    ensures Weekday(d) == 0 ==> WeekDates(d)[0] == d - 6
    ensures Weekday(d) == 6 ==> WeekDates(d)[0] == d - 5
  {
  }

  /** `prevWeek`: the reference date moves seven days back. */
  function PrevWeek(d: int): (p: int)
    ensures p < d && Weekday(p) == Weekday(d)
  {
    WeekdayPeriodic(d, -1);
    d - 7
  }

  /** `nextWeek`: the reference date moves seven days on. */
  function NextWeek(d: int): (n: int)
    ensures n > d && Weekday(n) == Weekday(d)
  {
    WeekdayPeriodic(d, 1);
    d + 7
  }

  /** The two buttons undo each other, and the shown week moves by exactly seven days each way. */
  lemma NavigationShiftsWeek(d: int)
    ensures NextWeek(d) - d == 7 == d - PrevWeek(d)
    ensures PrevWeek(NextWeek(d)) == d && NextWeek(PrevWeek(d)) == d
    ensures forall i :: 0 <= i < 5 ==> WeekDates(NextWeek(d))[i] == WeekDates(d)[i] + 7
    ensures forall i :: 0 <= i < 5 ==> WeekDates(PrevWeek(d))[i] == WeekDates(d)[i] - 7
  {
    WeekdayPeriodic(d, 1);
    WeekdayPeriodic(d, -1);
  }
}

=== FILE: workload.dfy ===
/**
 * The hours shown next to each teacher in the sidebar: the minutes of all of
 * the teacher's entries added up and written as `"Hh"` or `"Hh Mm"`.
 */
module Workload {
  import opened Js
  import opened Clock
  import opened Types
  import opened Selection

  /** Whether an entry belongs to teacher `id`. */
  function OfTeacher(id: string): Schedule -> bool {
    (s: Schedule) => s.teacherId == id
  }

  /** Both times of an entry are of the form `"HH:MM"`. */
  predicate TimesWellFormed(s: Schedule) {
    WellFormedTime(s.startTime) && WellFormedTime(s.endTime)
  }

  /** Every entry of teacher `id` has well-formed times (other entries are never read). */
  predicate TeacherTimesWellFormed(schedules: seq<Schedule>, id: string) {
    forall i :: 0 <= i < |schedules| && schedules[i].teacherId == id ==> TimesWellFormed(schedules[i])
  }

  /** The minutes an entry lasts: negative when it ends before it starts. */
  function Duration(s: Schedule): int
    requires TimesWellFormed(s)
  {
    TimeToMinutes(s.endTime) - TimeToMinutes(s.startTime)
  }

  /** The minutes of all entries together. */
  function SumDurations(xs: seq<Schedule>): int
    requires forall i :: 0 <= i < |xs| ==> TimesWellFormed(xs[i])
  {
    if |xs| == 0 then 0 else SumDurations(xs[..|xs| - 1]) + Duration(xs[|xs| - 1])
  }

  /** One more entry of a prefix adds its duration to the sum. */
  lemma SumStep(xs: seq<Schedule>, i: nat)
    requires forall k :: 0 <= k < |xs| ==> TimesWellFormed(xs[k])
    requires i < |xs|
    ensures SumDurations(xs[..i + 1]) == SumDurations(xs[..i]) + Duration(xs[i])
  {
    assert xs[..i + 1][..i] == xs[..i];
  }

  /** The minutes of teacher `id`: every entry of that teacher counted once, the others not at all. */
  function TeacherMinutes(schedules: seq<Schedule>, id: string): int
    requires TeacherTimesWellFormed(schedules, id)
  {
    if |schedules| == 0 then 0
    else
      var last := schedules[|schedules| - 1];
      TeacherMinutes(schedules[..|schedules| - 1], id) + (if last.teacherId == id then Duration(last) else 0)
  }

  /** Filtering the teacher's entries and summing them gives the teacher's minutes. */
  lemma {:induction false} SumOfTeacherEntries(schedules: seq<Schedule>, id: string)
    requires TeacherTimesWellFormed(schedules, id)
    ensures forall i :: 0 <= i < |Filter(schedules, OfTeacher(id))| ==> TimesWellFormed(Filter(schedules, OfTeacher(id))[i])
    ensures SumDurations(Filter(schedules, OfTeacher(id))) == TeacherMinutes(schedules, id)
  {
    var mine := Filter(schedules, OfTeacher(id));
    forall i | 0 <= i < |mine|
      ensures TimesWellFormed(mine[i])
    {
      assert mine[i] in schedules;
    }
    if |schedules| > 0 {
      SumOfTeacherEntries(schedules[..|schedules| - 1], id);
      var last := schedules[|schedules| - 1];
      var init := Filter(schedules[..|schedules| - 1], OfTeacher(id));
      if last.teacherId == id {
        assert mine == init + [last];
        assert mine[..|mine| - 1] == init;
      }
    }
  }

  /** The minutes of a list split in two are the minutes of both parts. */
  lemma {:induction false} TeacherMinutesAppend(xs: seq<Schedule>, ys: seq<Schedule>, id: string)
    requires TeacherTimesWellFormed(xs, id) && TeacherTimesWellFormed(ys, id)
    ensures TeacherTimesWellFormed(xs + ys, id)
    ensures TeacherMinutes(xs + ys, id) == TeacherMinutes(xs, id) + TeacherMinutes(ys, id)
  {
    var zs := xs + ys;
    forall i | 0 <= i < |zs| && zs[i].teacherId == id
      ensures TimesWellFormed(zs[i])
    {
      if i >= |xs| {
        assert zs[i] == ys[i - |xs|];
      }
    }
    if |ys| > 0 {
      assert zs[..|zs| - 1] == xs + ys[..|ys| - 1];
      TeacherMinutesAppend(xs, ys[..|ys| - 1], id);
    } else {
      assert zs == xs;
    }
  }

  /**
   * Only the teacher's own entries matter: two lists whose entries of that
   * teacher agree, in order, give the same total.
   */
  lemma OtherTeachersIgnored(xs: seq<Schedule>, ys: seq<Schedule>, id: string)
    requires TeacherTimesWellFormed(xs, id) && TeacherTimesWellFormed(ys, id)
    requires Filter(xs, OfTeacher(id)) == Filter(ys, OfTeacher(id))
    ensures TeacherMinutes(xs, id) == TeacherMinutes(ys, id)
  {
    SumOfTeacherEntries(xs, id);
    SumOfTeacherEntries(ys, id);
  }

  /** A teacher with no entries has no minutes. */
  lemma {:induction false} NoEntriesNoMinutes(schedules: seq<Schedule>, id: string)
    requires forall i :: 0 <= i < |schedules| ==> schedules[i].teacherId != id
    ensures TeacherTimesWellFormed(schedules, id)
    ensures TeacherMinutes(schedules, id) == 0
  {
    if |schedules| > 0 {
      NoEntriesNoMinutes(schedules[..|schedules| - 1], id);
    }
  }

  /**
   * The text for a total: `Math.floor(total / 60)` hours, then the JavaScript
   * remainder `total % 60` as minutes unless it is zero.
   */
  function FormatDuration(total: int): (r: string)
    ensures |r| >= 2
    ensures Rem(total, 60) == 0 <==> r[|r| - 1] == 'h'
    ensures Rem(total, 60) != 0 <==> r[|r| - 1] == 'm'
  {
    // Dafny's division by a positive divisor is Math.floor's
    var hours := IntToString(total / 60);
    var mins := Rem(total, 60);
    if mins == 0 then hours + "h" else hours + ("h " + (IntToString(mins) + "m"))
  }

  /** A run of digits followed by a non-digit: the leading digits are exactly the run. */
  lemma {:induction false} LeadingDigitsStop(d: string, rest: string)
    requires AllDigits(d)
    requires |rest| == 0 || !IsDigit(rest[0])
    ensures LeadingDigits(d + rest) == d
  {
    if |d| > 0 {
      assert (d + rest)[1..] == d[1..] + rest;
      LeadingDigitsStop(d[1..], rest);
    }
  }

  /**
   * Reads a label back into its hours and minutes: `"Hh"`, or `"Hh Mm"` with
   * minutes 1 to 59, each number written as `toString` writes it; anything
   * else reads as nothing.
   */
  function ReadDuration(s: string): (hm: Option<(nat, nat)>)
    ensures hm.Some? ==> hm.value.1 < 60
  {
    var hs := LeadingDigits(s);
    if CanonicalDigits(hs) then ReadAfterHours(DigitsValue(hs), s[|hs|..]) else None
  }

  /** What follows the hour digits: `h`, or `h`, a space and the minutes. */
  function ReadAfterHours(hours: nat, rest: string): (hm: Option<(nat, nat)>)
    ensures hm.Some? ==> hm.value.1 < 60
  {
    if rest == "h" then Some((hours, 0))
    else if |rest| >= 2 && rest[..2] == "h " then ReadMinutesField(hours, rest[2..])
    else None
  }

  /** The minutes: a numeral from 1 to 59 and a closing `m`. */
  function ReadMinutesField(hours: nat, tail: string): (hm: Option<(nat, nat)>)
    ensures hm.Some? ==> hm.value.1 < 60
  {
    var ms := LeadingDigits(tail);
    if CanonicalDigits(ms) && tail == ms + "m" && 0 < DigitsValue(ms) < 60 then Some((hours, DigitsValue(ms)))
    else None
  }

  /** Digits followed by a non-digit: the digits are the hours, the rest is read after them. */
  lemma {:induction false} ReadDurationSplit(hs: string, rest: string)
    requires CanonicalDigits(hs)
    requires |rest| > 0 && !IsDigit(rest[0])
    ensures ReadDuration(hs + rest) == ReadAfterHours(DigitsValue(hs), rest)
  {
    LeadingDigitsStop(hs, rest);
    assert (hs + rest)[|hs|..] == rest;
  }

  /** A numeral and an `h` read back as that many hours and no minutes. */
  lemma ReadWholeHours(hs: string)
    requires CanonicalDigits(hs)
    ensures ReadDuration(hs + "h") == Some((DigitsValue(hs), 0))
  {
    ReadDurationSplit(hs, "h");
  }

  /** After the hours, `h` and a space hand the rest to the minutes field. */
  lemma ReadAfterHoursMinutes(hours: nat, tail: string)
    ensures ReadAfterHours(hours, "h " + tail) == ReadMinutesField(hours, tail)
  {
    assert ("h " + tail)[..2] == "h ";
    assert ("h " + tail)[2..] == tail;
  }

  /** A numeral from 1 to 59 and a closing `m` are that many minutes. */
  lemma {:induction false} ReadMinutesOf(hours: nat, ms: string)
    requires CanonicalDigits(ms) && 0 < DigitsValue(ms) < 60
    ensures ReadMinutesField(hours, ms + "m") == Some((hours, DigitsValue(ms)))
  {
    LeadingDigitsStop(ms, "m");
  }

  /** Hours, `h `, minutes and `m` read back as those hours and minutes. */
  lemma {:induction false} ReadHoursAndMinutes(hs: string, ms: string)
    requires CanonicalDigits(hs) && CanonicalDigits(ms) && 0 < DigitsValue(ms) < 60
    ensures ReadDuration(hs + ("h " + (ms + "m"))) == Some((DigitsValue(hs), DigitsValue(ms)))
  {
    ReadDurationSplit(hs, "h " + (ms + "m"));
    ReadAfterHoursMinutes(DigitsValue(hs), ms + "m");
    ReadMinutesOf(DigitsValue(hs), ms);
  }

  /**
   * For a total of zero or more, the label reads back as
   * `Math.floor(total / 60)` hours and `total % 60` minutes.
   */
  lemma DurationRoundTrip(total: int)
    requires total >= 0
    ensures ReadDuration(FormatDuration(total)) == Some((total / 60, Rem(total, 60)))
  {
    var hours := IntToString(total / 60);
    var mins := Rem(total, 60);
    NatToDecimalCanonical(total / 60);
    if mins == 0 {
      ReadWholeHours(hours);
    } else {
      NatToDecimalCanonical(mins);
      ReadHoursAndMinutes(hours, IntToString(mins));
    }
  }

  /** A numeral and `h` is the label of that many whole hours. */
  lemma {:induction false} WholeHoursLabel(hs: string)
    requires CanonicalDigits(hs)
    ensures hs + "h" == FormatDuration(60 * DigitsValue(hs))
  {
    NatToDecimalOfCanonical(hs);
    assert (60 * DigitsValue(hs)) / 60 == DigitsValue(hs);
  }

  /** Hours, `h `, minutes from 1 to 59 and `m` is the label of their total. */
  lemma {:induction false} HoursAndMinutesLabel(hs: string, ms: string)
    requires CanonicalDigits(hs) && CanonicalDigits(ms) && 0 < DigitsValue(ms) < 60
    ensures hs + ("h " + (ms + "m")) == FormatDuration(60 * DigitsValue(hs) + DigitsValue(ms))
  {
    NatToDecimalOfCanonical(hs);
    NatToDecimalOfCanonical(ms);
    var total := 60 * DigitsValue(hs) + DigitsValue(ms);
    assert total / 60 == DigitsValue(hs) && Rem(total, 60) == DigitsValue(ms);
  }

  /** A text that reads splits into a numeral for the hours and the rest after it. */
  lemma {:induction false} ReadDurationParts(s: string)
    requires ReadDuration(s).Some?
    ensures var hs := LeadingDigits(s);
      CanonicalDigits(hs) && s == hs + s[|hs|..]
      && ReadDuration(s) == ReadAfterHours(DigitsValue(hs), s[|hs|..])
  {
    var hs := LeadingDigits(s);
    assert s == hs + s[|hs|..];
  }

  /** After the hours, anything but `h` that reads is `h `, then a minutes field that reads. */
  lemma {:induction false} ReadAfterHoursParts(hours: nat, rest: string)
    requires ReadAfterHours(hours, rest).Some? && rest != "h"
    ensures rest == "h " + rest[2..]
    ensures var ms := LeadingDigits(rest[2..]);
      CanonicalDigits(ms) && 0 < DigitsValue(ms) < 60 && rest[2..] == ms + "m"
      && ReadAfterHours(hours, rest) == Some((hours, DigitsValue(ms)))
  {
    assert rest == rest[..2] + rest[2..];
  }

  /**
   * The reader accepts nothing but labels: whatever reads as hours `h` and
   * minutes `m` is exactly the label of the total `60 * h + m`.
   */
  lemma {:induction false} ReadDurationOnlyLabels(s: string)
    requires ReadDuration(s).Some?
    ensures var hm := ReadDuration(s);
      s == FormatDuration(60 * hm.value.0 + hm.value.1)
  {
    ReadDurationParts(s);
    var hs := LeadingDigits(s);
    var rest := s[|hs|..];
    if rest == "h" {
      WholeHoursLabel(hs);
    } else {
      ReadAfterHoursParts(DigitsValue(hs), rest);
      HoursAndMinutesLabel(hs, LeadingDigits(rest[2..]));
    }
  }

  /** An hour count padded with a leading zero (`"02h"`), which the formatter never writes, does not read. */
  lemma {:induction false} ReaderRejectsPaddedHours(hs: string, rest: string)
    requires AllDigits(hs) && |hs| > 1 && hs[0] == '0'
    requires |rest| == 0 || !IsDigit(rest[0])
    ensures ReadDuration(hs + rest) == None
  {
    LeadingDigitsStop(hs, rest);
  }

  /** A minutes field of 60 or more (`"0h 170m"`), which the formatter never writes, does not read. */
  lemma {:induction false} ReaderRejectsLongMinutes(hs: string, ms: string)
    requires CanonicalDigits(hs) && AllDigits(ms) && DigitsValue(ms) >= 60
    ensures ReadDuration(hs + ("h " + (ms + "m"))) == None
  {
    ReadDurationSplit(hs, "h " + (ms + "m"));
    ReadAfterHoursMinutes(DigitsValue(hs), ms + "m");
    LeadingDigitsStop(ms, "m");
  }

  /** Distinct totals of zero or more get distinct labels. */
  lemma FormatDurationInjective(a: int, b: int)
    requires a >= 0 && b >= 0 && FormatDuration(a) == FormatDuration(b)
    ensures a == b
  {
    DurationRoundTrip(a);
    DurationRoundTrip(b);
  }

  /**
   * `calculateTeacherHours`: filter the teacher's entries, add up their
   * minutes in a loop and format the total.
   */
  method CalculateTeacherHours(schedules: seq<Schedule>, teacherId: string) returns (r: string)
    requires TeacherTimesWellFormed(schedules, teacherId)
    ensures r == FormatDuration(TeacherMinutes(schedules, teacherId))
  {
    var mine := Filter(schedules, OfTeacher(teacherId));
    SumOfTeacherEntries(schedules, teacherId);
    var total := 0;
    var i := 0;
    while i < |mine|
      invariant 0 <= i <= |mine|
      invariant total == SumDurations(mine[..i])
    {
      SumStep(mine, i);
      total := total + Duration(mine[i]);
      i := i + 1;
    }
    assert mine[..|mine|] == mine;
    r := FormatDuration(total);
  }

  /** Worked values: no entries give `"0h"`, 170 minutes `"2h 50m"` and 410 minutes `"6h 50m"`. */
  lemma FormatExamples()
    ensures FormatDuration(0) == "0h"
    ensures FormatDuration(170) == "2h 50m"
    ensures FormatDuration(410) == "6h 50m"
  {
    assert IntToString(0) == "0";
    assert IntToString(2) == "2";
    assert IntToString(6) == "6";
    assert IntToString(50) == "50" by {
      assert NatToDecimal(5) == "5";
    }
  }

  /** A total of -30 minutes, as the JavaScript operators compute it, reads `"-1h -30m"`. */
  lemma FormatNegativeExample()
    ensures FormatDuration(-30) == "-1h -30m"
  {
    assert -30 / 60 == -1;
    assert Rem(-30, 60) == -30;
    assert IntToString(-1) == "-1";
    assert IntToString(-30) == "-30" by {
      assert NatToDecimal(3) == "3";
      assert NatToDecimal(30) == "30";
    }
  }
}

=== FILE: year_groups_api.dfy ===
/**
 * `POST /api/year-groups`: creates a year group and links it to the
 * subjects it takes. The handler reads no session, so any caller may create
 * one.
 */
module YearGroupsApi {
  import opened Js
  import opened Store

  /** The request body: a name and the subjects the year group takes. */
  datatype YearGroupBody = YearGroupBody(name: Option<string>, subjectIds: Option<seq<string>>)

  /** One subject link per listed id, in order; none for an absent or empty list. */
  function SubjectLinksFor(yearGroupId: string, subjectIds: Option<seq<string>>): (links: seq<YearSubject>)
    ensures NonEmpty(subjectIds) ==> |links| == |subjectIds.value|
    ensures !NonEmpty(subjectIds) ==> links == []
    ensures forall i :: 0 <= i < |links| ==> links[i] == YearSubject(yearGroupId, subjectIds.value[i])
  {
    if NonEmpty(subjectIds) then
      seq(|subjectIds.value|, i requires 0 <= i < |subjectIds.value| => YearSubject(yearGroupId, subjectIds.value[i]))
    else []
  }

  /**
   * `POST /api/year-groups`. The caller's session is a parameter only to
   * show that it plays no part. `newId` is the identifier the store assigns.
   */
  function CreateYearGroup(session: Option<Session>, body: YearGroupBody, db: Db, newId: string): (out: Outcome)
    ensures !Truthy(body.name) ==> out == Outcome(BadRequest, db)
    ensures Truthy(body.name) ==>
      out.status == Created
      && out.db.yearGroups == db.yearGroups + [YearGroupRow(newId, body.name.value)]
      && out.db.yearSubjects == db.yearSubjects + SubjectLinksFor(newId, body.subjectIds)
      && out.db.(yearGroups := db.yearGroups, yearSubjects := db.yearSubjects) == db
  {
    if !Truthy(body.name) then Outcome(BadRequest, db)
    else
      Outcome(Created, db.(yearGroups := db.yearGroups + [YearGroupRow(newId, body.name.value)],
                           yearSubjects := db.yearSubjects + SubjectLinksFor(newId, body.subjectIds)))
  }

  /** No caller is turned away: signed out, a teacher or an administrator get the same answer. */
  lemma AnyCallerMayCreate(s1: Option<Session>, s2: Option<Session>, body: YearGroupBody, db: Db, newId: string)
    ensures CreateYearGroup(s1, body, db, newId) == CreateYearGroup(s2, body, db, newId)
    ensures CreateYearGroup(None, body, db, newId).status != Unauthorized
  {
  }

  /**
   * Every listed subject is linked to the new year group, and every new link
   * names a listed subject: the subjects offered are exactly those listed.
   */
  lemma LinkedSubjectsAreListed(session: Option<Session>, body: YearGroupBody, db: Db, newId: string, subjectId: string)
    requires Truthy(body.name) && NonEmpty(body.subjectIds)
    ensures var added := CreateYearGroup(session, body, db, newId).db.yearSubjects[|db.yearSubjects|..];
      YearSubject(newId, subjectId) in added <==> subjectId in body.subjectIds.value
  {
    var added := CreateYearGroup(session, body, db, newId).db.yearSubjects[|db.yearSubjects|..];
    var links := SubjectLinksFor(newId, body.subjectIds);
    assert added == links;
    if subjectId in body.subjectIds.value {
      var i :| 0 <= i < |body.subjectIds.value| && body.subjectIds.value[i] == subjectId;
      assert links[i] == YearSubject(newId, subjectId);
    }
  }
}
